=== FILE: README.md ===
# knowledge_base RSS ingestion: a Dafny model

This project models the RSS side of the `knowledge_base` service (Go, Neo4j):

- the registration of feed sources, `postRssFeeds`: a `MERGE` on the source name whose `ON CREATE SET` fills in url, schedule, etag and `last_updated`;
- the listing of sources, `getRssFeeds`;
- the incremental ingestion run `IngestAllRssItems`:
  1. It looks up the source by name.
  2. It fetches the feed and applies the `> 300` status guard.
  3. It compares the stored `last_updated` with the document's `Updated` marker.
  4. It walks the items. An article already stored under the same (title, link) is skipped. A new article is inserted with a `CONTAINS_ARTICLE` edge dated today. Each listed author is linked to the article, or merged first when new.
  5. It writes the new marker.
- the three single-node lookups the run relies on, and the node-to-record decoders;
- `extractFileName`, which names downloaded images.

The graph database is a pure value (`Graph.Store`):

- source, article and author nodes are kept in creation order, each a property map with a numeric identity;
- `CONTAINS_ARTICLE` and `WROTE` edges are kept as sequences in creation order; the code CREATEs them and never MERGEs them, so the same edge can occur twice;
- a counter hands out fresh identities.

A Cypher `MATCH` is a filter over one node sequence (`Graph.Match`). Each statement the code sends is modelled as a store transition.

Everything outside the program is an input of the run (`Ingest.Env`):

- the HTTP GET plus feed parse, keyed by url;
- today's date;
- which statements the driver fails, with what message (`Graph.Oracle`);
- the Go map-iteration order that picks the id shown for a new author.

Each lookup has four outcomes (`Lookups.Lookup`):

- `Found`;
- `Absent`, which Go returns as the zero record with a nil error;
- `Error`, a returned error;
- `Fatal`, which stands for `log.Fatal`.

A fatal outcome ends the whole process, so a run that hits one yields `Died(store)` and no summary. The writes already committed stay in that store.

Status strings are enum tags (`Records.FeedStatus`, `EntryStatus`, `AuthorStatus`). The formatted ones keep their arguments.

Behaviour of the Go code worth noting (the model follows it):

- The fetch guard rejects status codes `> 300`, not `>= 300`. A 300 response is processed (`IngestProperties.StatusGuard`).
- When creating a new author fails, the status message names `extractedAuthor.Name`. On that path this is always the empty sentinel's name, so `AuthorStatus.CreateFailed` carries `""`, not the author's name (`Ingest.CreateNew`).
- The article lookup has no non-fatal error path: every error there is `log.Fatal`. So the per-item "Error in querying articles" branch can never be taken (`Lookups.LookupArticle` ensures `!r.Error?`).
- The author lookup matches on `name`, so its "no name found" error cannot occur either (`Lookups.LookupAuthor` ensures `!r.Error?`).

`Records` reconstructs the summary structs from the fields `IngestAllRssItems` assigns.

Modules, one file each: `Optional`, `Graph`, `Records`, `Lookups`, `Ingest`, `IngestProperties`, `StoreEffects`, `Uniqueness`, `Registry`, `Lifecycle`, `FileName`. `StoreEffects` states what each write statement does to the store in terms of MATCH. `Uniqueness` shows that a run keeps at most one article per (title, url) and one author per name. `Lifecycle` relates registration to later runs and shows that a run never reads the stored etag.

## Model

| member | source | states |
|---|---|---|
| Graph.Match | src/parsers/rss.go:57 | a MATCH never returns more nodes than the store holds (which nodes it returns is `Graph.MatchMembers`) |
| Graph.MatchMembers | src/parsers/rss.go:57 | a MATCH by property returns exactly the stored nodes carrying those property values |
| Graph.MatchAppend | src/parsers/rss.go:340-355 | a node created after earlier ones is matched after them, and only if it carries the pattern's values |
| Graph.WroteAll | src/parsers/rss.go:423-426 | a CREATE after two MATCHes adds as many WROTE edges as there are (author, article) rows |
| Graph.WroteAllMembers | src/parsers/rss.go:423-426 | every WROTE edge created joins a matched author to a matched article, and every such pair gets an edge |
| Graph.WroteToMembers | src/parsers/rss.go:423-426 | for one article, the edges created are exactly those from a matched author to that article |
| Graph.ContainsFrom | src/parsers/rss.go:351-354 | the CONTAINS_ARTICLE CREATE adds as many edges as there are matched sources |
| Graph.ContainsFromMembers | src/parsers/rss.go:351-354 | every CONTAINS_ARTICLE edge created runs from a matched source to the new article and carries the download date, and every matched source gets one |
| Lookups.DecodeFeed | src/parsers/rss.go:83-121 | a node decodes to an RssFeed exactly when url and name are strings; the identity, url and name are copied; scheduled_time, etag and last_updated are copied when they are strings and are "" otherwise |
| Lookups.DecodeEntry | src/parsers/rss.go:158-196 | a node decodes to an RssEntry exactly when url, name and date_posted are strings; description and date extracted are never read; static_file_url defaults to "" |
| Lookups.DecodeAuthor | src/parsers/rss.go:232-253 | a node without a string name is a returned error (not absence); otherwise identity and name are copied and a missing email becomes "" |
| Lookups.LookupSource | src/parsers/rss.go:51-125 | never reports absence; a failed query or more than one match is fatal; no match is the error SourceNotFound(name), and only then; a found source is the single match, decoded, under the looked-up name; a single match with url and name is always found |
| Lookups.LookupArticle | src/parsers/rss.go:129-199 | never returns an error; absent exactly when the query succeeds with no match; fatal exactly when the query fails, several articles match, or the single match lacks url, name or date_posted; a found article is the single match with the looked-up title and url |
| Lookups.LookupArticleDecodes | src/parsers/rss.go:158-196 | the article found is the decoding of the single match, and a single match that decodes is always found |
| Lookups.LookupAuthor | src/parsers/rss.go:202-257 | never returns an error; absent exactly when the query succeeds with no match; fatal exactly when the query fails or several authors share the name; a found author is the decoding of the single match: its element id, that name, and its stored email |
| Lookups.Returned | src/parsers/rss.go:144-145 | the Go (value, err) pair: err is set only for a returned error; absence and errors come back as the zero record (the one Go path that returns a partly filled record with an error, rss.go:238-244, cannot be reached from `LookupAuthor`) |
| Lookups.ArticleSentinel | src/parsers/rss.go:326 | a non-fatal article lookup returns no error, and its result differs from the all-empty RssEntry exactly when an article was found |
| Lookups.AuthorSentinel | src/parsers/rss.go:412 | a non-fatal author lookup returns no error, and its result differs from the all-empty RssAuthor exactly when an author was found |
| Ingest.LinkExisting | src/parsers/rss.go:412-453 | an existing author keeps the id and name the lookup found; the WROTE edge is created unless its statement fails, in which case the store is unchanged and the status names author and article |
| Ingest.CreateNew | src/parsers/rss.go:454-507 | a new author is merged and linked unless the statement fails; on failure the store is unchanged and the status names the sentinel's empty author name and the article |
| Ingest.IngestAuthor | src/parsers/rss.go:397-511 | only author nodes and WROTE edges can change; the process dies exactly when the author lookup is fatal, with nothing written; a recorded error writes nothing; an existing author keeps its id and is reported as linked, or as a failed link naming author and article, and on success gains exactly one edge to the new article; an absent one is reported as created, or as a failed create naming the empty sentinel and the article, and on success becomes exactly one new node with exactly one edge |
| Ingest.IngestAuthors | src/parsers/rss.go:397-514 | one author summary per listed author, in order, each carrying that author's name; the loop dies only on an author lookup that is fatal |
| Ingest.IngestItem | src/parsers/rss.go:312-515 | a fatal article lookup ends the process before any write; otherwise the process dies only on a fatal author lookup after the article was inserted; at most the item's own article is added; a stored (title, link) is skipped with its id and no write; a failed insert writes nothing and records an entry with no id, the driver's message as error and no authors; a successful insert adds exactly one article node and one CONTAINS_ARTICLE edge from the source dated today, and reports the new id with one author summary per author |
| Ingest.IngestItems | src/parsers/rss.go:312-516 | one entry summary per feed item, in feed order, with the item's title and link; sources never change; the loop dies only on a lookup made for one of the items that is fatal |
| Ingest.Run | src/parsers/rss.go:262-543 | a fatal source lookup ends the process with nothing written, and otherwise the process dies only on a fatal lookup made for a fetched item; the summary carries the requested title; a failed source lookup, fetch or status guard writes nothing, reports an error and lists no entries; an unchanged marker writes nothing and reports no error; completed runs carry no error; an error-free summary carries the source that was found |
| Ingest.Finish | src/parsers/rss.go:517-539 | after the item loop, the run dies exactly when the loop died; otherwise the summary carries the run's title, the loaded source and the loop's entries |
| StoreEffects.InsertArticleEffect | src/parsers/rss.go:336-368 | the article CREATE adds one node, which becomes an extra match for the item's (title, link) and for no other pair, plus one CONTAINS_ARTICLE edge dated today from each source of that name; nothing else changes |
| StoreEffects.LinkAuthorEffect | src/parsers/rss.go:419-436 | the WROTE CREATE adds exactly the edges from a matched author to a matched article, one per pair; nothing else changes |
| StoreEffects.MergeAuthorEffect | src/parsers/rss.go:460-480 | with no matching article nothing is written; otherwise a name with no author node gets exactly one carrying name and email, an existing author is left as it is, no other name's nodes change, and the new WROTE edges are exactly one per (author now carrying the name, matched article) pair |
| StoreEffects.SetLastUpdatedEffect | src/parsers/rss.go:522-534 | the marker MERGE creates a source carrying name and marker when none has the name; otherwise every source of that name, and only those, get the marker; only source nodes change |
| StoreEffects.MarkerSetEffect | src/parsers/rss.go:526-527 | the marker SET keeps the same number of sources under the name, each now carrying the new marker |
| Uniqueness.AuthorKeepsUnique | src/parsers/rss.go:397-511 | an author step keeps every author name carried by at most one node |
| Uniqueness.AuthorsKeepUnique | src/parsers/rss.go:397-514 | the author loop keeps author names unique |
| Uniqueness.ItemKeepsUniqueKeys | src/parsers/rss.go:318-368 | an item's pass keeps every (title, url) pair carried by at most one article |
| Uniqueness.ItemKeepsUniqueNames | src/parsers/rss.go:312-515 | an item's pass keeps author names unique |
| Uniqueness.ItemsKeepUnique | src/parsers/rss.go:312-516 | the item loop keeps both invariants, whatever each item's outcome |
| Uniqueness.RunKeepsUnique | src/parsers/rss.go:262-543 | a whole run keeps article keys and author names unique |
| IngestProperties.SourceFailureEndsRun | src/parsers/rss.go:267-273 | a fatal source lookup ends the process with the store unchanged; a missing source yields a summary holding only the title, the SourceNotFound error and the extraction-failed status |
| IngestProperties.StatusGuard | src/parsers/rss.go:286-292 | a status code above 300 yields the BadStatus error with the loaded source and no entries; exactly 300 passes the guard |
| IngestProperties.UnchangedFeedWritesNothing | src/parsers/rss.go:297-308 | when the stored last_updated equals the document's Updated, the run reports "no new items" with both markers and no entries, and writes nothing |
| IngestProperties.WritesOnlyWhenChanged | src/parsers/rss.go:267-308 | any run that changed the store got past every short circuit, including the change check |
| IngestProperties.OneEntryPerItem | src/parsers/rss.go:312-316 | past the change check, the summary has one entry per feed item, in feed order |
| IngestProperties.FinalizeAfterItems | src/parsers/rss.go:517-539 | after the item loop the marker update runs; on failure only status and error change and the collected entries are kept; on success the summary is the completed one and the single source holds the document's marker |
| IngestProperties.MarkerUpdate | src/parsers/rss.go:524-533 | the marker MERGE/SET on a uniquely named source rewrites only that node's last_updated and keeps it the only node of that name |
| IngestProperties.MatchAfterSet | src/parsers/rss.go:526-527 | setting last_updated (or any property other than name) never changes which nodes match by name, only their property maps |
| IngestProperties.SecondRunWritesNothing | src/parsers/rss.go:297-308 | after a completed run, running again with the same fetched document writes nothing |
| IngestProperties.ItemsUnfold | src/parsers/rss.go:312-516 | the item loop processes the first item, then the rest from the store the first left behind |
| IngestProperties.InsertUnfold | src/parsers/rss.go:336-511 | on the insert path the new article is the only node under its (title, link), and the item's outcome is the author loop run against it, reported under the new id |
| IngestProperties.RunUnfold | src/parsers/rss.go:262-539 | a run that found its source, passed the status guard and saw a changed marker is the item loop over the fetched items followed by the marker update |
| IngestProperties.AuthorsUnfold | src/parsers/rss.go:397-511 | the author loop processes the first author, then the rest from the store the first left behind |
| IngestProperties.ItemKeepsKey | src/parsers/rss.go:318-333 | an article stored alone under a (title, link) stays alone under it through any item |
| IngestProperties.ItemsKeepKey | src/parsers/rss.go:312-333 | ... and through any sequence of items, whatever their outcomes |
| IngestProperties.StoredDuplicateSkipped | src/parsers/rss.go:326-333 | an item whose (title, link) already names one stored article is reported as already existing with that article's id |
| IngestProperties.InsertedThenSkipped | src/parsers/rss.go:318-333 | within one run, a later item with the same (title, link) as an inserted one is skipped and points at the article just created |
| IngestProperties.InsertedMatchesAlone | src/parsers/rss.go:336-375 | right after an insert, the new article is the only one under its (title, link) and decodes |
| IngestProperties.FailedItemIsTransparent | src/parsers/rss.go:369-375 | an item whose insert failed leaves the store as it was and contributes the entry with no id, the driver's message and no authors; later items are processed as if it were not listed |
| IngestProperties.FailedAuthorIsTransparent | src/parsers/rss.go:438-448 | an author step that recorded an error leaves the store as it was, so later authors see what they would have seen without it |
| IngestProperties.RepeatedAuthorTwoEdges | src/parsers/rss.go:397-511 | a new author listed twice on one item yields one author node and two WROTE edges: created first, then linked as existing |
| IngestProperties.SecondPassLinks | src/parsers/rss.go:412-453 | an author stored once is found by the next pass for that name, which adds one edge |
| Registry.MergeSourceInto | src/main.go:186-206 | an existing name is returned untouched and nothing is written; a new name gets exactly one node carrying the submitted values |
| Registry.DecodeAll | src/main.go:218-262 | the returned nodes decode in order, one record per node; the whole decode fails exactly when some node lacks url or name |
| Registry.Register | src/main.go:172-266 | registration touches only source nodes, and only by appending |
| Registry.ListFeeds | src/main.go:108-170 | the listing holds one decoded record per stored source, in order; it fails exactly when the query fails or some source lacks url or name |
| Registry.NewSourceRoundTrip | src/main.go:190-197 | a freshly created source decodes back to exactly the submitted values under its new identity |
| Registry.RegisterNew | src/main.go:183-262 | registering a new name creates one node and returns the submitted values with the new identity |
| Registry.RegisterExisting | src/main.go:183-262 | registering an existing name writes nothing and returns the stored node, decoded |
| Registry.RegisterTwice | src/main.go:183-262 | registering a name twice leaves a single node with the first registration's values, and both responses show it |
| Registry.RegisterKeepsNamesUnique | src/main.go:190-197 | if every source name is unique before registration, it is unique after |
| Registry.ListAfterRegister | src/main.go:108-170 | after registering a new name, the listing is the earlier listing followed by the new source |
| Lifecycle.RegisterThenUnchangedRun | src/main.go:183-262 | after a new name is registered, the run's source lookup finds exactly the submitted values under the new identity; a document whose Updated equals the submitted last_updated is reported as having no new items and nothing is written |
| Lifecycle.DecodeRetag | src/parsers/rss.go:83-121 | the source decode copies etag and nothing else depends on it |
| Lifecycle.LookupRetag | src/parsers/rss.go:51-125 | after a new etag is stored, the source lookup has the same outcome, and a found source differs only in its etag |
| Lifecycle.AuthorsIgnoreSources | src/parsers/rss.go:397-511 | the author loop reads no source node: over other source nodes it makes the same writes and the same summaries |
| Lifecycle.ItemsIgnoreSources | src/parsers/rss.go:312-516 | the item loop reads the source nodes only for the identity of the source it links new articles to |
| Lifecycle.SetsCommute | src/parsers/rss.go:524-533 | two SETs of different properties on the nodes of one name commute |
| Lifecycle.EtagNotConsulted | src/parsers/rss_structs.go:26 | the stored etag is never consulted: a run over a store whose source has another etag dies in the same cases, writes the same changes, and reports the same summary apart from the etag echoed in it |
| FileName.BeforeFirst | src/parsers/html.go:102-103 | the first part of the split is the longest prefix without the separator |
| FileName.TrimTrailingSlashes | src/parsers/html.go:106 | filepath.Base strips trailing slashes: the result is a prefix, does not end in '/', and only slashes were removed |
| FileName.LastElement | src/parsers/html.go:106 | the element after the last '/' is a slash-free suffix that is either all of the path or preceded by '/' |
| FileName.Base | src/parsers/html.go:106 | filepath.Base is never empty; "" gives "."; a path of slashes gives "/"; otherwise the last slash-free element after trailing slashes are removed |
| FileName.AllSlashes | src/parsers/html.go:106 | any all-slash path has base "/" |
| FileName.BaseCharacters | src/parsers/html.go:106 | the base consists of characters of the path, apart from a made-up "." or "/" |
| FileName.CutIsLongestCleanPrefix | src/parsers/html.go:100-104 | the string handed to filepath.Base is the longest prefix of the url that contains neither '?' nor '#' |
| FileName.ExtractFileName | src/parsers/html.go:100-107 | the extracted file name is never empty and never contains '?' or '#' |
| FileName.SuffixIgnored | src/parsers/html.go:101-103 | everything from the first '?' or '#' on, slashes included, has no effect on the file name |
| FileName.Idempotent | src/parsers/html.go:100-107 | extracting the file name of an extracted file name changes nothing |
| FileName.BaseFixedPoint | src/parsers/html.go:106 | ".", "/" and any non-empty slash-free name are their own base |
| FileName.LastElementAfterSlash | src/parsers/html.go:106 | the last element of a path ending in "/name" is name |
| FileName.FileOfUrl | src/parsers/html.go:100-107 | a url whose last path segment is a non-empty name yields that name, whatever query or fragment follows |
| FileName.QueryWithSlashExample | src/parsers/html.go:100-107 | "http://x/a.png?s=1/2" yields "a.png", not the "2" a slash in the query would otherwise give |

## Left out

- The Neo4j driver, sessions and the Cypher text itself. Each statement is a store transition; a driver failure is an input (`Graph.Oracle`), fixed per statement descriptor.
- The order of MATCH results is taken to be store (creation) order; Neo4j does not promise an order.
- HTTP and feed parsing (`http.Get`, `gofeed`). The fetch is an input from url to response. The code ignores the error the parse returns; a failed parse gives a nil feed, and reading its `Updated` at rss.go:297 panics. That crash is not modelled: every fetched response carries a parsed feed.
- `time.Now()` and the `created: timestamp()` properties. The creation timestamps are not stored. The code calls `time.Now()` once per inserted item (rss.go:364), so a run that crosses midnight dates its edges on two days; the model takes one date per run (`Env.today`).
- Logging, `fmt.Println`/`Printf` output and the driver's result counters.
- The second return value of `IngestAllRssItems`. On every returning path the summary's error field reports the same failure.
- JSON binding, struct tags and the HTTP status codes of the handlers. A failed bind in `postRssFeeds` is `log.Fatal` and is not modelled.
- `getRssEntry`, `extractRssFeedEntries` (a thin wrapper), `setupDatabase`, `main`, the gin routing, `LoadHtmlPage`, `UploadHtmlFileToStatic`, and all of `images.go`. They are I/O or outside the RSS core.
- `ExtractFieldsFromRssFeed`, which only prints parsed fields.
- Concurrency. Each handler call and ingestion run is one sequential transition.
- Windows path semantics of `filepath.Base`; the Unix separator is assumed.
- Ingest.CreateNew: the id reported for a newly created author is one of the two nodes the statement returns, chosen by Go map iteration order. The contract does not say which.
- Lookups.DecodeEntry: the `in_static_file_storage` property is read with a Go `.(int)` assertion, which fails on the `int64` values the driver returns. The model reads any stored integer, and the decoded `InStorage` field appears in no contract.
- Element identities are numbers, so a decoded node never carries the empty id. A Neo4j element id is a non-empty string, so the zero-record existence tests hold in the source as well.
- Ingest.IngestAuthor: modelled only for an item whose article the same iteration just inserted (its precondition). That is the only place the code runs the author loop.

=== FILE: file_name.dfy ===
/**
  extractFileName: the file name of an image url, used to name the local copy
  of a scraped image. The query is cut at the first `?`, then the fragment at
  the first `#`, and the remainder goes through `filepath.Base` (Unix
  separators).
 */
module FileName {

  /** `strings.Split(s, string(c))[0]`: everything before the first `c`, or all of `s`. */
  function BeforeFirst(s: string, c: char): (r: string)
    ensures r <= s
    ensures c !in r
    ensures |r| < |s| ==> s[|r|] == c
  {
    if |s| == 0 || s[0] == c then ""
    else [s[0]] + BeforeFirst(s[1..], c)
  }

  /** The strip-trailing-slashes loop of `filepath.Base`. */
  function TrimTrailingSlashes(p: string): (r: string)
    ensures r <= p
    ensures |r| == 0 || r[|r| - 1] != '/'
    ensures forall i :: |r| <= i < |p| ==> p[i] == '/'
  {
    if |p| > 0 && p[|p| - 1] == '/' then TrimTrailingSlashes(p[..|p| - 1]) else p
  }

  /** The find-the-last-separator loop of `filepath.Base`: what follows the last `/`, or all of `p`. */
  function LastElement(p: string): (r: string)
    ensures |r| <= |p| && r == p[|p| - |r|..]
    ensures '/' !in r
    ensures |r| < |p| ==> p[|p| - |r| - 1] == '/'
  {
    if |p| == 0 || p[|p| - 1] == '/' then ""
    else LastElement(p[..|p| - 1]) + [p[|p| - 1]]
  }

  /**
    `filepath.Base` on Unix: "." for the empty path, "/" for a path of slashes
    only, otherwise the last `/`-separated element once trailing slashes are
    removed.
   */
  function Base(p: string): (r: string)
    ensures r != ""
    ensures p == "" ==> r == "."
    ensures p != "" && TrimTrailingSlashes(p) == "" ==> r == "/"
    ensures TrimTrailingSlashes(p) != "" ==>
              var t := TrimTrailingSlashes(p);
              && |r| <= |t| && r == t[|t| - |r|..]
              && '/' !in r
              && (|r| == |t| || t[|t| - |r| - 1] == '/')
  {
    if p == "" then "."
    else
      var t := TrimTrailingSlashes(p);
      var e := LastElement(t);
      if e == "" then "/" else e
  }

  /** A path made only of slashes has Base "/". */
  lemma AllSlashes(p: string)
    requires p != ""
    requires forall i :: 0 <= i < |p| ==> p[i] == '/'
    ensures Base(p) == "/"
  {
  }

  /** Every character of Base's result comes from the path, except the "." and "/" it makes up. */
  lemma BaseCharacters(p: string)
    ensures forall c :: c in Base(p) ==> c in p || c == '.' || c == '/'
  {
    var t := TrimTrailingSlashes(p);
    if t != "" {
      var r := Base(p);
      forall c | c in r
        ensures c in p
      {
        var k :| 0 <= k < |r| && r[k] == c;
        assert t[|t| - |r| + k] == c;
        assert p[|t| - |r| + k] == c;
      }
    }
  }

  /**
    extractFileName: the last path element of the url once everything from the
    first `?` or `#` on is dropped. The result is never empty and never holds
    either delimiter.
   */
  function ExtractFileName(url: string): (r: string)
    ensures r != "" && '?' !in r && '#' !in r
  {
    var cut := BeforeFirst(BeforeFirst(url, '?'), '#');
    CutIsLongestCleanPrefix(url);
    BaseCharacters(cut);
    Base(cut)
  }

  /** The string handed to Base is the longest prefix of the url that holds neither `?` nor `#`. */
  lemma CutIsLongestCleanPrefix(url: string)
    ensures var cut := BeforeFirst(BeforeFirst(url, '?'), '#');
            && cut <= url
            && '?' !in cut && '#' !in cut
            && (|cut| < |url| ==> url[|cut|] == '?' || url[|cut|] == '#')
  {
    var q := BeforeFirst(url, '?');
    var cut := BeforeFirst(q, '#');
    assert forall c :: c in cut ==> c in q;
    if |cut| < |url| {
      if |cut| < |q| {
        assert url[|cut|] == q[|cut|];
      }
    }
  }

  /** Whatever follows the first `?` or `#` (slashes included) has no effect on the result. */
  lemma SuffixIgnored(path: string, rest: string)
    requires '?' !in path && '#' !in path
    requires |rest| > 0 && (rest[0] == '?' || rest[0] == '#')
    ensures ExtractFileName(path + rest) == Base(path)
  {
    var url := path + rest;
    CutIsLongestCleanPrefix(url);
    var cut := BeforeFirst(BeforeFirst(url, '?'), '#');
    assert url[..|path|] == path;
    assert cut == url[..|cut|];
  }

  /** Applying extractFileName to its own output changes nothing. */
  lemma Idempotent(url: string)
    ensures ExtractFileName(ExtractFileName(url)) == ExtractFileName(url)
  {
    var r := ExtractFileName(url);
    NoCutWithout(r, '?');
    NoCutWithout(r, '#');
    BaseFixedPoint(r);
  }

  /** Cutting at a character the string does not hold leaves it whole. */
  lemma {:induction false} NoCutWithout(s: string, c: char)
    requires c !in s
    ensures BeforeFirst(s, c) == s
  {
    if |s| > 0 {
      assert s[0] != c;
      assert c !in s[1..];
      NoCutWithout(s[1..], c);
    }
  }

  /** Base returns "." and "/" unchanged, and any slash-free non-empty string unchanged. */
  lemma BaseFixedPoint(s: string)
    requires s == "." || s == "/" || (s != "" && '/' !in s)
    ensures Base(s) == s
  {
    if s == "/" {
      assert s[..0] == "";
      assert TrimTrailingSlashes(s) == TrimTrailingSlashes("");
    } else {
      assert s[|s| - 1] != '/';
      assert TrimTrailingSlashes(s) == s;
      LastElementWhole(s);
    }
  }

  /** A slash-free string is its own last element. */
  lemma {:induction false} LastElementWhole(s: string)
    requires '/' !in s
    ensures LastElement(s) == s
  {
    if |s| > 0 {
      assert '/' !in s[..|s| - 1];
      LastElementWhole(s[..|s| - 1]);
      assert s[..|s| - 1] + [s[|s| - 1]] == s;
    }
  }

  /** The last element of a path ending in `/name` is `name`. */
  lemma {:induction false} LastElementAfterSlash(dir: string, name: string)
    requires '/' !in name
    ensures LastElement(dir + "/" + name) == name
    decreases |name|
  {
    var p := dir + "/" + name;
    if |name| == 0 {
      assert p[|p| - 1] == '/';
    } else {
      var init := name[..|name| - 1];
      assert '/' !in init;
      assert p[..|p| - 1] == dir + "/" + init;
      assert p[|p| - 1] == name[|name| - 1];
      LastElementAfterSlash(dir, init);
      assert init + [name[|name| - 1]] == name;
    }
  }

  /** A url with a non-empty, slash-free last segment yields that segment, whatever its query. */
  lemma FileOfUrl(dir: string, name: string, rest: string)
    requires '?' !in dir && '#' !in dir
    requires name != "" && '/' !in name && '?' !in name && '#' !in name
    requires |rest| > 0 && (rest[0] == '?' || rest[0] == '#')
    ensures ExtractFileName(dir + "/" + name + rest) == name
  {
    var path := dir + "/" + name;
    assert forall i :: 0 <= i < |path| ==> path[i] != '?' && path[i] != '#';
    SuffixIgnored(path, rest);
    assert path[|path| - 1] == name[|name| - 1];
    LastElementAfterSlash(dir, name);
  }

  /** The worked case of an image url whose query holds a slash. */
  lemma QueryWithSlashExample()
    ensures ExtractFileName("http://x/a.png?s=1/2") == "a.png"
  {
    var dir, name, rest := "http://x", "a.png", "?s=1/2";
    assert dir + "/" + name + rest == "http://x/a.png?s=1/2";
    assert '/' !in name && '?' !in name && '#' !in name;
    assert '?' !in dir && '#' !in dir;
    FileOfUrl(dir, name, rest);
  }
}

=== FILE: graph.dfy ===
/**
  An abstract graph store holding the three node labels the ingestion pass uses
  (Rss_Feed:Source, Rss_Feed:Article, Rss_Feed:Author:Person) and its two edge
  types (CONTAINS_ARTICLE, WROTE), together with the Cypher building blocks the
  pass relies on: property-pattern MATCH, CREATE, and MERGE.
 */
module Graph {
  import opened Optional

  /** A property value as the store hands it back. */
  datatype Value = Str(s: string) | Int(i: int) | Other

  type Props = map<string, Value>

  /** A node: its store-assigned element identity and its property map. */
  datatype Node = Node(id: nat, props: Props)

  /** (source)-[:CONTAINS_ARTICLE {date_downloaded}]->(article) */
  datatype Contains = Contains(source: nat, article: nat, dateDownloaded: string)

  /** (author)-[:WROTE]->(article) */
  datatype Wrote = Wrote(author: nat, article: nat)

  /**
    The whole store. Edges are CREATEd, never MERGEd, so the same edge can be
    present more than once; each edge list is kept in creation order.
    `nextId` is the identity the next created node receives.
   */
  datatype Store = Store(
    sources: seq<Node>,
    articles: seq<Node>,
    authors: seq<Node>,
    contains: seq<Contains>,
    wrote: seq<Wrote>,
    nextId: nat)

  /**
    How a step ends: `Done` with its result, or `Died` when `log.Fatal` ended
    the process; the store then keeps every write committed before that point.
   */
  datatype Outcome<T> = Done(store: Store, value: T) | Died(store: Store)

  /** Every statement the core sends to the store; the failure oracle is keyed on these. */
  datatype Query =
    | FindSource(name: string)
    | FindArticle(title: string, url: string)
    | FindAuthor(name: string)
    | InsertArticle(title: string, url: string, sourceName: string)
    | LinkAuthor(title: string, url: string, authorName: string)
    | CreateAuthor(title: string, url: string, authorName: string, email: string)
    | SetLastUpdated(name: string, lastUpdated: string)
    | MergeSource(name: string)
    | ListSources

  /** For each statement, `Some(message)` when the driver returns an error for it. */
  type Oracle = Query -> Option<string>

  predicate HasStr(props: Props, key: string, s: string)
  {
    key in props && props[key] == Str(s)
  }

  /** The property patterns of the MATCH clauses: `{name: $name}` and `{name: $name, url: $url}`. */
  datatype Pattern = ByName(name: string) | ByNameAndUrl(name: string, url: string)

  predicate Matches(n: Node, p: Pattern)
  {
    match p
    case ByName(name) => HasStr(n.props, "name", name)
    case ByNameAndUrl(name, url) => HasStr(n.props, "name", name) && HasStr(n.props, "url", url)
  }

  /** The nodes a MATCH on `p` returns, in store order. */
  function Match(nodes: seq<Node>, p: Pattern): (r: seq<Node>)
    ensures |r| <= |nodes|
  {
    if |nodes| == 0 then []
    else
      var last := nodes[|nodes| - 1];
      Match(nodes[..|nodes| - 1], p) + (if Matches(last, p) then [last] else [])
  }

  /** A MATCH returns exactly the nodes that satisfy the pattern. */
  lemma {:induction false} MatchMembers(nodes: seq<Node>, p: Pattern)
    ensures forall n :: n in Match(nodes, p) <==> n in nodes && Matches(n, p)
    decreases |nodes|
  {
    if |nodes| > 0 {
      var init := nodes[..|nodes| - 1];
      MatchMembers(init, p);
      assert nodes == init + [nodes[|nodes| - 1]];
    }
  }

  lemma MatchAppend(nodes: seq<Node>, n: Node, p: Pattern)
    ensures Match(nodes + [n], p) == Match(nodes, p) + (if Matches(n, p) then [n] else [])
  {
    assert (nodes + [n])[..|nodes|] == nodes;
  }

  /** One CONTAINS_ARTICLE edge from every node of `sources` to `article`. */
  function ContainsFrom(sources: seq<Node>, article: nat, date: string): (r: seq<Contains>)
    ensures |r| == |sources|
  {
    if |sources| == 0 then []
    else ContainsFrom(sources[..|sources| - 1], article, date)
         + [Contains(sources[|sources| - 1].id, article, date)]
  }

  /** The CONTAINS_ARTICLE edges are exactly those from a matched source to `article`, dated `date`. */
  lemma {:induction false} ContainsFromMembers(sources: seq<Node>, article: nat, date: string)
    ensures forall e :: e in ContainsFrom(sources, article, date) <==>
              && e.article == article && e.dateDownloaded == date
              && exists s :: s in sources && s.id == e.source
    decreases |sources|
  {
    if |sources| > 0 {
      var init := sources[..|sources| - 1];
      ContainsFromMembers(init, article, date);
      assert sources == init + [sources[|sources| - 1]];
    }
  }

  /** One WROTE edge from every node of `authors` to `article`. */
  function WroteTo(authors: seq<Node>, article: nat): (r: seq<Wrote>)
    ensures |r| == |authors|
  {
    if |authors| == 0 then []
    else WroteTo(authors[..|authors| - 1], article) + [Wrote(authors[|authors| - 1].id, article)]
  }

  lemma {:induction false} WroteToMembers(authors: seq<Node>, article: nat)
    ensures forall e :: e in WroteTo(authors, article) <==>
              e.article == article && exists a :: a in authors && a.id == e.author
    decreases |authors|
  {
    if |authors| > 0 {
      var init := authors[..|authors| - 1];
      WroteToMembers(init, article);
      assert authors == init + [authors[|authors| - 1]];
    }
  }

  /** The WROTE edges `CREATE (author)-[:WROTE]->(article)` adds: one per matched (author, article) row. */
  function WroteAll(authors: seq<Node>, articles: seq<Node>): (r: seq<Wrote>)
    ensures |r| == |authors| * |articles|
  {
    if |articles| == 0 then []
    else WroteAll(authors, articles[..|articles| - 1]) + WroteTo(authors, articles[|articles| - 1].id)
  }

  /** Every WROTE edge created joins a matched author to a matched article, and every such pair gets one. */
  lemma {:induction false} WroteAllMembers(authors: seq<Node>, articles: seq<Node>)
    ensures forall e :: e in WroteAll(authors, articles) <==>
              && (exists a :: a in authors && a.id == e.author)
              && (exists b :: b in articles && b.id == e.article)
    decreases |articles|
  {
    if |articles| > 0 {
      var init := articles[..|articles| - 1];
      WroteAllMembers(authors, init);
      WroteToMembers(authors, articles[|articles| - 1].id);
      assert articles == init + [articles[|articles| - 1]];
    }
  }

  lemma WroteAllSingle(a: Node, b: Node)
    ensures WroteAll([a], [b]) == [Wrote(a.id, b.id)]
  {
    assert [b][..0] == [];
    assert [a][..0] == [];
  }

  lemma ContainsFromSingle(s: Node, article: nat, date: string)
    ensures ContainsFrom([s], article, date) == [Contains(s.id, article, date)]
  {
    assert [s][..0] == [];
  }

  /** `SET n.<key> = $value` on every node matched by name. */
  function SetPropOn(nodes: seq<Node>, name: string, key: string, value: Value): seq<Node>
  {
    seq(|nodes|, i requires 0 <= i < |nodes| =>
      if Matches(nodes[i], ByName(name))
      then Node(nodes[i].id, nodes[i].props[key := value])
      else nodes[i])
  }
}

=== FILE: ingest.dfy ===
/**
  IngestAllRssItems: one incremental ingestion run for a named feed source,
  as a pure transition from a store to a new store and a nested summary.

  Foreign calls are inputs of the run (`Env`): the HTTP GET plus feed parse
  (`fetch`, keyed by url), today's date, the driver's failure for each
  statement (`fails`), and the Go map-iteration order that decides which node
  id a new author's summary shows (`articleColumnLast`).
 */
module Ingest {
  import opened Optional
  import opened Graph
  import opened Records
  import opened Lookups

  /** An item author as the feed parser reports it. */
  datatype Person = Person(name: string, email: string)

  /** One parsed feed item. */
  datatype Item = Item(
    title: string,
    link: string,
    description: string,
    published: string,
    authors: seq<Person>)

  /** A parsed feed: its document-level `Updated` marker and its items in order. */
  datatype Feed = Feed(updated: string, items: seq<Item>)

  /** The result of `http.Get` on a source url followed by the parse of its body. */
  datatype Response = TransportError(message: string) | Fetched(statusCode: int, feed: Feed)

  datatype Env = Env(
    fetch: string -> Response,
    today: string,
    fails: Oracle,
    articleColumnLast: Query -> bool)

  /** The properties the article CREATE sets (the `created` timestamp is left out). */
  function ArticleProps(item: Item): Props
  {
    map[
      "name" := Str(item.title),
      "url" := Str(item.link),
      "description" := Str(item.description),
      "date_posted" := Str(item.published),
      "static_file_url" := Str(""),
      "in_static_file_storage" := Int(0)]
  }

  /** The properties `MERGE (author {name}) ON CREATE SET name, email` gives a new author. */
  function AuthorProps(p: Person): Props
  {
    map["name" := Str(p.name), "email" := Str(p.email)]
  }

  function ArticleKey(item: Item): Pattern
  {
    ByNameAndUrl(item.title, item.link)
  }

  /**
    `CREATE (article {...}) WITH article MATCH (source {name}) CREATE
    (source)-[:CONTAINS_ARTICLE {date_downloaded}]->(article)`.
   */
  function InsertArticleInto(st: Store, item: Item, sourceName: string, date: string): Store
  {
    st.(articles := st.articles + [Node(st.nextId, ArticleProps(item))],
        contains := st.contains + ContainsFrom(Match(st.sources, ByName(sourceName)), st.nextId, date),
        nextId := st.nextId + 1)
  }

  /** `MATCH (article {name, url}) MATCH (author {name}) CREATE (author)-[:WROTE]->(article)`. */
  function LinkAuthorInto(st: Store, item: Item, authorName: string): Store
  {
    st.(wrote := st.wrote + WroteAll(Match(st.authors, ByName(authorName)), Match(st.articles, ArticleKey(item))))
  }

  /**
    `MATCH (article {name, url}) MERGE (author {name}) ON CREATE SET ...
    CREATE (author)-[:WROTE]->(article)`: with no matching article nothing happens.
   */
  function MergeAuthorInto(st: Store, item: Item, p: Person): Store
  {
    if |Match(st.articles, ArticleKey(item))| == 0 then st
    else
      var merged :=
        if |Match(st.authors, ByName(p.name))| == 0
        then st.(authors := st.authors + [Node(st.nextId, AuthorProps(p))], nextId := st.nextId + 1)
        else st;
      LinkAuthorInto(merged, item, p.name)
  }

  /**
    `MERGE (source {name}) SET source.last_updated = $value`: a missing source
    would be created; every matched source gets the new marker.
   */
  function SetLastUpdatedInto(st: Store, name: string, value: string): Store
  {
    if |Match(st.sources, ByName(name))| == 0
    then st.(sources := st.sources + [Node(st.nextId, map["name" := Str(name), "last_updated" := Str(value)])],
             nextId := st.nextId + 1)
    else st.(sources := SetPropOn(st.sources, name, "last_updated", Str(value)))
  }

  /** Nothing but the WROTE edges and the author nodes can change while authors are processed. */
  ghost predicate AuthorsOnlyGrow(st: Store, st': Store)
  {
    && st'.sources == st.sources
    && st'.articles == st.articles
    && st'.contains == st.contains
    && st.authors <= st'.authors
    && st.wrote <= st'.wrote
    && st.nextId <= st'.nextId
  }

  /** With exactly one author and one article matched, the WROTE CREATE adds exactly one edge. */
  lemma LinkOne(st: Store, item: Item, name: string, author: Node, article: Node)
    requires Match(st.authors, ByName(name)) == [author]
    requires Match(st.articles, ArticleKey(item)) == [article]
    ensures LinkAuthorInto(st, item, name) == st.(wrote := st.wrote + [Wrote(author.id, article.id)])
  {
    WroteAllSingle(author, article);
  }

  /** With no author of that name, the MERGE creates one node and the CREATE one edge to the article. */
  lemma MergeNew(st: Store, item: Item, p: Person, article: Node)
    requires |Match(st.authors, ByName(p.name))| == 0
    requires Match(st.articles, ArticleKey(item)) == [article]
    ensures MergeAuthorInto(st, item, p)
            == st.(authors := st.authors + [Node(st.nextId, AuthorProps(p))],
                   wrote := st.wrote + [Wrote(st.nextId, article.id)],
                   nextId := st.nextId + 1)
  {
    var newAuthor := Node(st.nextId, AuthorProps(p));
    var merged := st.(authors := st.authors + [newAuthor], nextId := st.nextId + 1);
    assert MergeAuthorInto(st, item, p) == LinkAuthorInto(merged, item, p.name);
    OnlyNewMatches(st.authors, newAuthor, ByName(p.name));
    LinkOne(merged, item, p.name, newAuthor, article);
    assert merged.(wrote := merged.wrote + [Wrote(newAuthor.id, article.id)])
        == st.(authors := st.authors + [newAuthor],
               wrote := st.wrote + [Wrote(st.nextId, article.id)],
               nextId := st.nextId + 1);
  }

  lemma OnlyNewMatches(nodes: seq<Node>, n: Node, pat: Pattern)
    requires |Match(nodes, pat)| == 0
    requires Matches(n, pat)
    ensures Match(nodes + [n], pat) == [n]
  {
    MatchAppend(nodes, n, pat);
  }

  /** The branch for an author the lookup found: add a WROTE edge, nothing else. */
  function LinkExisting(st: Store, item: Item, existing: RssAuthor, env: Env): (r: Outcome<AuthorSummary>)
    ensures r.Done?
    ensures r.value.id == existing.id && r.value.name == existing.name
    ensures r.value.error.None? <==> env.fails(LinkAuthor(item.title, item.link, existing.name)).None?
    ensures r.value.error.None? ==> r.value.status == ExistingAuthorLinked && r.store == LinkAuthorInto(st, item, existing.name)
    ensures r.value.error.Some? ==> r.value.status == LinkFailed(existing.name, item.title) && r.store == st
  {
    match env.fails(LinkAuthor(item.title, item.link, existing.name))
    case Some(msg) =>
      Done(st, AuthorSummary(existing.id, existing.name, LinkFailed(existing.name, item.title), Some(QueryFailed(msg))))
    case None =>
      Done(LinkAuthorInto(st, item, existing.name), AuthorSummary(existing.id, existing.name, ExistingAuthorLinked, None))
  }

  /**
    The branch for an absent author: MERGE the node and CREATE the edge. Which
    of the two returned nodes the summary's id comes from is left to
    `env.articleColumnLast`; the failure status names the sentinel's (empty) name,
    as the code does.
   */
  function CreateNew(st: Store, item: Item, articleId: nat, p: Person, env: Env): (r: Outcome<AuthorSummary>)
    ensures r.Done?
    ensures r.value.name == p.name
    ensures r.value.error.None? <==> env.fails(CreateAuthor(item.title, item.link, p.name, p.email)).None?
    ensures r.value.error.None? ==> r.value.status == NewAuthorCreated && r.store == MergeAuthorInto(st, item, p)
    ensures r.value.error.Some? ==> r.value.status == CreateFailed(EmptyAuthor.name, item.title) && r.store == st
  {
    var q := CreateAuthor(item.title, item.link, p.name, p.email);
    match env.fails(q)
    case Some(msg) =>
      Done(st, AuthorSummary(NoId, p.name, CreateFailed(EmptyAuthor.name, item.title), Some(QueryFailed(msg))))
    case None =>
      var id := if env.articleColumnLast(q) then articleId else st.nextId;
      Done(MergeAuthorInto(st, item, p), AuthorSummary(Element(id), p.name, NewAuthorCreated, None))
  }

  /**
    One pass of the inner author loop, for an item whose article was just
    inserted (the precondition stands for the `Records[0]` the create path reads).
   */
  function IngestAuthor(st: Store, item: Item, articleId: nat, p: Person, env: Env): (r: Outcome<AuthorSummary>)
    requires Match(st.articles, ArticleKey(item)) == [Node(articleId, ArticleProps(item))]
    ensures AuthorsOnlyGrow(st, r.store)
    ensures r.Died? <==> LookupAuthor(st, p.name, env.fails).Fatal?
    ensures r.Died? ==> r.store == st
    ensures r.Done? ==> r.value.name == p.name
    ensures r.Done? && r.value.error.Some? ==> r.store == st
    // an existing author only gains an edge
    ensures r.Done? && LookupAuthor(st, p.name, env.fails).Found? ==>
              && r.value.id == LookupAuthor(st, p.name, env.fails).value.id
              && (r.value.error.None? <==> env.fails(LinkAuthor(item.title, item.link, p.name)).None?)
              && r.value.status == (if r.value.error.None? then ExistingAuthorLinked else LinkFailed(p.name, item.title))
              && (r.value.error.None? ==>
                    r.store == st.(wrote := st.wrote + [Wrote(Match(st.authors, ByName(p.name))[0].id, articleId)]))
    // an absent author becomes one new node plus one edge
    ensures r.Done? && LookupAuthor(st, p.name, env.fails).Absent? ==>
              && (r.value.error.None? <==> env.fails(CreateAuthor(item.title, item.link, p.name, p.email)).None?)
              && r.value.status == (if r.value.error.None? then NewAuthorCreated else CreateFailed("", item.title))
              && (r.value.error.None? ==>
                    r.store == st.(authors := st.authors + [Node(st.nextId, AuthorProps(p))],
                                   wrote := st.wrote + [Wrote(st.nextId, articleId)],
                                   nextId := st.nextId + 1))
  {
    var found := LookupAuthor(st, p.name, env.fails);
    if found.Fatal? then Died(st)
    else
      var pair := Returned(found, EmptyAuthor);
      if pair.1.Some? then
        Done(st, AuthorSummary(NoId, p.name, AuthorQueryFailed, pair.1))
      else if pair.0 != EmptyAuthor then
        var r := LinkExisting(st, item, pair.0, env);
        ExistingLinkEffect(st, item, articleId, p, env);
        r
      else
        var r := CreateNew(st, item, articleId, p, env);
        NewLinkEffect(st, item, articleId, p, env);
        r
  }

  lemma ExistingLinkEffect(st: Store, item: Item, articleId: nat, p: Person, env: Env)
    requires Match(st.articles, ArticleKey(item)) == [Node(articleId, ArticleProps(item))]
    requires LookupAuthor(st, p.name, env.fails).Found?
    ensures LookupAuthor(st, p.name, env.fails).value.name == p.name
    ensures LinkAuthorInto(st, item, p.name)
            == st.(wrote := st.wrote + [Wrote(Match(st.authors, ByName(p.name))[0].id, articleId)])
  {
    var author := Match(st.authors, ByName(p.name))[0];
    assert author in Match(st.authors, ByName(p.name));
    assert Match(st.authors, ByName(p.name)) == [author];
    LinkOne(st, item, p.name, author, Node(articleId, ArticleProps(item)));
  }

  lemma NewLinkEffect(st: Store, item: Item, articleId: nat, p: Person, env: Env)
    requires Match(st.articles, ArticleKey(item)) == [Node(articleId, ArticleProps(item))]
    requires LookupAuthor(st, p.name, env.fails).Absent?
    ensures MergeAuthorInto(st, item, p)
            == st.(authors := st.authors + [Node(st.nextId, AuthorProps(p))],
                   wrote := st.wrote + [Wrote(st.nextId, articleId)],
                   nextId := st.nextId + 1)
  {
    MergeNew(st, item, p, Node(articleId, ArticleProps(item)));
  }

  /** The inner author loop: every listed author in order, each failure isolated to its own summary. */
  function IngestAuthors(st: Store, item: Item, articleId: nat, authors: seq<Person>, env: Env): (r: Outcome<seq<AuthorSummary>>)
    requires Match(st.articles, ArticleKey(item)) == [Node(articleId, ArticleProps(item))]
    ensures AuthorsOnlyGrow(st, r.store)
    ensures r.Done? ==> |r.value| == |authors|
    ensures r.Done? ==> forall i :: 0 <= i < |authors| ==> r.value[i].name == authors[i].name
    // the loop dies only on an author lookup that is fatal against the store it stopped at
    ensures r.Died? ==> exists i :: 0 <= i < |authors| && LookupAuthor(r.store, authors[i].name, env.fails).Fatal?
    decreases |authors|
  {
    if |authors| == 0 then Done(st, [])
    else
      match IngestAuthor(st, item, articleId, authors[0], env)
      case Died(st1) => Died(st1)
      case Done(st1, first) =>
        match IngestAuthors(st1, item, articleId, authors[1..], env)
        case Died(st2) =>
          assert forall i :: 0 <= i < |authors| - 1 ==> authors[1..][i] == authors[i + 1];
          Died(st2)
        case Done(st2, rest) => Done(st2, [first] + rest)
  }

  /** Only article nodes, CONTAINS_ARTICLE edges and author-side data change while items are processed. */
  ghost predicate ItemsOnlyGrow(st: Store, st': Store)
  {
    && st'.sources == st.sources
    && st.articles <= st'.articles
    && st.authors <= st'.authors
    && st.contains <= st'.contains
    && st.wrote <= st'.wrote
    && st.nextId <= st'.nextId
  }

  /** Some lookup the pass makes for `item` is fatal against the store `st`. */
  predicate FatalLookupFor(st: Store, item: Item, env: Env)
  {
    || LookupArticle(st, item.title, item.link, env.fails).Fatal?
    || exists i :: 0 <= i < |item.authors| && LookupAuthor(st, item.authors[i].name, env.fails).Fatal?
  }

  /** One pass of the item loop for the source named `sourceName`, which the run has already found. */
  function IngestItem(st: Store, sourceName: string, item: Item, env: Env): (r: Outcome<EntrySummary>)
    requires |Match(st.sources, ByName(sourceName))| == 1
    ensures ItemsOnlyGrow(st, r.store)
    ensures r.Done? ==> r.value.title == item.title && r.value.url == item.link
    // a fatal article lookup ends the process before any write of this item
    ensures LookupArticle(st, item.title, item.link, env.fails).Fatal? ==> r == Died(st)
    // otherwise the pass dies only on a fatal author lookup, after its article was inserted
    ensures r.Died? && !LookupArticle(st, item.title, item.link, env.fails).Fatal? ==>
              && LookupArticle(st, item.title, item.link, env.fails).Absent?
              && env.fails(InsertArticle(item.title, item.link, sourceName)).None?
              && exists i :: 0 <= i < |item.authors| && LookupAuthor(r.store, item.authors[i].name, env.fails).Fatal?
    // at most this item's own article is added
    ensures r.store.articles == st.articles
            || (LookupArticle(st, item.title, item.link, env.fails).Absent?
                && r.store.articles == st.articles + [Node(st.nextId, ArticleProps(item))])
    ensures r.Done? && r.value.status == Inserted ==>
              LookupArticle(st, item.title, item.link, env.fails).Absent?
              && env.fails(InsertArticle(item.title, item.link, sourceName)).None?
    // an existing (title, link) is skipped without any write
    ensures LookupArticle(st, item.title, item.link, env.fails).Found? ==>
              r == Done(st, EntrySummary(LookupArticle(st, item.title, item.link, env.fails).value.id,
                                         item.title, item.link, AlreadyExists, None, []))
    // a failed insert writes nothing and records the error
    ensures LookupArticle(st, item.title, item.link, env.fails).Absent?
            && env.fails(InsertArticle(item.title, item.link, sourceName)).Some? ==>
              r == Done(st, EntrySummary(NoId, item.title, item.link, InsertFailed,
                                         Some(QueryFailed(env.fails(InsertArticle(item.title, item.link, sourceName)).value)), []))
    // a new item gets exactly one article node and one CONTAINS_ARTICLE edge dated today
    ensures LookupArticle(st, item.title, item.link, env.fails).Absent?
            && env.fails(InsertArticle(item.title, item.link, sourceName)).None? ==>
              && r.store.articles == st.articles + [Node(st.nextId, ArticleProps(item))]
              && r.store.contains == st.contains
                                     + [Contains(Match(st.sources, ByName(sourceName))[0].id, st.nextId, env.today)]
              && (r.Done? ==>
                    && r.value == EntrySummary(Element(st.nextId), item.title, item.link, Inserted, None, r.value.authors)
                    && |r.value.authors| == |item.authors|
                    && (forall i :: 0 <= i < |item.authors| ==> r.value.authors[i].name == item.authors[i].name))
  {
    var found := LookupArticle(st, item.title, item.link, env.fails);
    if found.Fatal? then Died(st)
    else
      var (existing, err) := Returned(found, EmptyEntry);
      if err.Some? then
        Done(st, EntrySummary(NoId, item.title, item.link, ArticleQueryFailed, err, []))
      else if existing != EmptyEntry then
        Done(st, EntrySummary(existing.id, item.title, item.link, AlreadyExists, None, []))
      else
        match env.fails(InsertArticle(item.title, item.link, sourceName))
        case Some(msg) =>
          Done(st, EntrySummary(NoId, item.title, item.link, InsertFailed, Some(QueryFailed(msg)), []))
        case None =>
          var article := Node(st.nextId, ArticleProps(item));
          var st1 := InsertArticleInto(st, item, sourceName, env.today);
          MatchAppend(st.articles, article, ArticleKey(item));
          ContainsFromSingle(Match(st.sources, ByName(sourceName))[0], st.nextId, env.today);
          assert Match(st.sources, ByName(sourceName)) == [Match(st.sources, ByName(sourceName))[0]];
          match IngestAuthors(st1, item, st.nextId, item.authors, env)
          case Died(st2) => Died(st2)
          case Done(st2, authors) =>
            Done(st2, EntrySummary(Element(st.nextId), item.title, item.link, Inserted, None, authors))
  }

  /** The item loop: one summary entry per item, in feed order; per-item failures never stop it. */
  function IngestItems(st: Store, sourceName: string, items: seq<Item>, env: Env): (r: Outcome<seq<EntrySummary>>)
    requires |Match(st.sources, ByName(sourceName))| == 1
    ensures ItemsOnlyGrow(st, r.store)
    ensures r.Done? ==> |r.value| == |items|
    ensures r.Done? ==> forall i :: 0 <= i < |items| ==>
              r.value[i].title == items[i].title && r.value[i].url == items[i].link
    // the loop dies only on a lookup, for one of the items, that is fatal against the store it stopped at
    ensures r.Died? ==> exists j :: 0 <= j < |items| && FatalLookupFor(r.store, items[j], env)
    decreases |items|
  {
    if |items| == 0 then Done(st, [])
    else
      match IngestItem(st, sourceName, items[0], env)
      case Died(st1) => Died(st1)
      case Done(st1, first) =>
        match IngestItems(st1, sourceName, items[1..], env)
        case Died(st2) =>
          assert forall j :: 0 <= j < |items| - 1 ==> items[1..][j] == items[j + 1];
          Died(st2)
        case Done(st2, rest) => Done(st2, [first] + rest)
  }

  /** The summary before any source has been loaded: only the title is set. */
  function Blank(name: string): FeedSummary
  {
    FeedSummary(NoId, name, SourceExtractionFailed, None, EmptyFeed, [])
  }

  /**
    The tail of a run whose change check passed: the item loop's outcome `o`,
    then the marker update to the document's `updated` value on the source
    named `feed.title`.
   */
  function Finish(o: Outcome<seq<EntrySummary>>, name: string, feed: RssFeed, updated: string, env: Env): (r: Outcome<FeedSummary>)
    ensures r.Died? == o.Died?
    ensures r.Done? ==> r.value.title == name && r.value.rssFeed == feed && r.value.entries == o.value
  {
    match o
    case Died(st1) => Died(st1)
    case Done(st1, entries) =>
      var collected := Blank(name).(id := feed.id, rssFeed := feed, status := IngestionComplete, entries := entries);
      match env.fails(SetLastUpdated(feed.title, updated))
      case Some(msg) => Done(st1, collected.(status := LastUpdatedWriteFailed, error := Some(QueryFailed(msg))))
      case None => Done(SetLastUpdatedInto(st1, feed.title, updated), collected)
  }

  /**
    IngestAllRssItems. Source lookup, fetch guard, change check on the
    document-level marker, the item loop, then the marker update.
   */
  function Run(st: Store, name: string, env: Env): (r: Outcome<FeedSummary>)
    // the process dies only through a fatal lookup: the source's, or one made for a fetched item
    ensures LookupSource(st, name, env.fails).Fatal? ==> r == Died(st)
    ensures r.Died? ==>
              || LookupSource(st, name, env.fails).Fatal?
              || (&& LookupSource(st, name, env.fails).Found?
                  && var response := env.fetch(LookupSource(st, name, env.fails).value.url);
                  && response.Fetched?
                  && exists j :: 0 <= j < |response.feed.items| && FatalLookupFor(r.store, response.feed.items[j], env))
    ensures r.Done? ==> r.value.title == name
    ensures r.Done? && r.value.status == SourceExtractionFailed ==>
              r.store == st && r.value.error.Some? && r.value.entries == []
    ensures r.Done? && r.value.status.NoNewItems? ==> r.store == st && r.value.error.None? && r.value.entries == []
    ensures r.Done? && r.value.status == IngestionComplete ==> r.value.error.None?
    ensures r.Done? && r.value.error.None? ==>
              LookupSource(st, name, env.fails).Found? && r.value.rssFeed == LookupSource(st, name, env.fails).value
  {
    var source := LookupSource(st, name, env.fails);
    if source.Fatal? then Died(st)
    else if source.Error? then
      Done(st, Blank(name).(status := SourceExtractionFailed, error := Some(source.failure)))
    else
      var feed := source.value;
      var loaded := Blank(name).(id := feed.id, rssFeed := feed);
      match env.fetch(feed.url)
      case TransportError(msg) =>
        Done(st, loaded.(status := SourceExtractionFailed, error := Some(Transport(msg))))
      case Fetched(code, doc) =>
        if code > 300 then
          Done(st, loaded.(status := SourceExtractionFailed, error := Some(BadStatus(feed.url, code))))
        else if feed.lastUpdate == doc.updated then
          Done(st, loaded.(status := NoNewItems(feed.title, feed.lastUpdate, doc.updated)))
        else
          Finish(IngestItems(st, feed.title, doc.items, env), name, feed, doc.updated, env)
  }
}

=== FILE: ingest_properties.dfy ===
/**
  Properties of one ingestion run (`Ingest.Run`) and of its item and author
  loops: the short circuits that write nothing, one summary entry per item,
  duplicate suppression (also against articles the same run inserted),
  failure isolation, author reuse, and the final marker update.
 */
module IngestProperties {
  import opened Optional
  import opened Graph
  import opened Records
  import opened Lookups
  import opened Ingest

  /** The run found its source, fetched it, and the status code passed the `> 300` guard. */
  predicate PassesGuards(st: Store, name: string, env: Env)
  {
    var source := LookupSource(st, name, env.fails);
    && source.Found?
    && env.fetch(source.value.url).Fetched?
    && env.fetch(source.value.url).statusCode <= 300
  }

  /** The parsed feed a run that passed the guards works on. */
  function Document(st: Store, name: string, env: Env): Feed
    requires PassesGuards(st, name, env)
  {
    env.fetch(LookupSource(st, name, env.fails).value.url).feed
  }

  /** The run gets past the change check: the stored marker differs from the document's. */
  predicate Changed(st: Store, name: string, env: Env)
  {
    && PassesGuards(st, name, env)
    && LookupSource(st, name, env.fails).value.lastUpdate != Document(st, name, env).updated
  }

  /** A source lookup that fails ends the run at once: only title, error and status are set, nothing is written. */
  lemma SourceFailureEndsRun(st: Store, name: string, env: Env)
    ensures LookupSource(st, name, env.fails).Fatal? ==> Run(st, name, env) == Died(st)
    ensures |Match(st.sources, ByName(name))| == 0 && env.fails(FindSource(name)).None? ==>
              Run(st, name, env) == Done(st, FeedSummary(NoId, name, SourceExtractionFailed,
                                                         Some(SourceNotFound(name)), EmptyFeed, []))
  {
  }

  /** A status code above 300 records the error and processes no item; 300 itself is let through. */
  lemma StatusGuard(st: Store, name: string, env: Env)
    requires LookupSource(st, name, env.fails).Found?
    requires env.fetch(LookupSource(st, name, env.fails).value.url).Fetched?
    ensures var source := LookupSource(st, name, env.fails).value;
            var code := env.fetch(source.url).statusCode;
            && (code > 300 ==>
                  Run(st, name, env) == Done(st, FeedSummary(source.id, name, SourceExtractionFailed,
                                                             Some(BadStatus(source.url, code)), source, [])))
            && (code == 300 ==> PassesGuards(st, name, env))
  {
  }

  /**
    Change check: when the stored `last_updated` equals the document's `Updated`
    (plain string equality; the etag plays no part), the run returns no entries
    and writes nothing, not even the marker.
   */
  lemma UnchangedFeedWritesNothing(st: Store, name: string, env: Env)
    requires PassesGuards(st, name, env)
    requires LookupSource(st, name, env.fails).value.lastUpdate == Document(st, name, env).updated
    ensures var source := LookupSource(st, name, env.fails).value;
            Run(st, name, env) == Done(st, FeedSummary(source.id, name,
                                         NoNewItems(name, source.lastUpdate, Document(st, name, env).updated),
                                         None, source, []))
  {
  }

  /** Every short circuit is write-free: a run that changed the store got past the change check. */
  lemma WritesOnlyWhenChanged(st: Store, name: string, env: Env)
    ensures Run(st, name, env).store != st ==> Changed(st, name, env)
  {
  }

  /** Past the change check, the summary has one entry per feed item, in feed order. */
  lemma OneEntryPerItem(st: Store, name: string, env: Env)
    requires Changed(st, name, env)
    ensures var r := Run(st, name, env);
            var items := Document(st, name, env).items;
            r.Done? ==>
              && |r.value.entries| == |items|
              && forall i :: 0 <= i < |items| ==>
                   r.value.entries[i].title == items[i].title && r.value.entries[i].url == items[i].link
  {
    SourceIsUnique(st, name, env);
  }

  lemma SourceIsUnique(st: Store, name: string, env: Env)
    requires LookupSource(st, name, env.fails).Found?
    ensures |Match(st.sources, ByName(LookupSource(st, name, env.fails).value.title))| == 1
  {
  }

  /**
    Finalize: whatever happened to the items, the marker update runs; when it
    fails only the feed-level error and status change and the collected
    entries are kept; when it succeeds the source holds the document's marker.
   */
  lemma FinalizeAfterItems(st: Store, name: string, env: Env)
    requires Changed(st, name, env)
    requires IngestItems(st, name, Document(st, name, env).items, env).Done?
    ensures var source := LookupSource(st, name, env.fails).value;
            var doc := Document(st, name, env);
            var items := IngestItems(st, name, doc.items, env);
            && (env.fails(SetLastUpdated(name, doc.updated)).Some? ==>
                  Run(st, name, env) == Done(items.store, FeedSummary(source.id, name, LastUpdatedWriteFailed,
                                               Some(QueryFailed(env.fails(SetLastUpdated(name, doc.updated)).value)),
                                               source, items.value)))
            && (env.fails(SetLastUpdated(name, doc.updated)).None? ==>
                  && Run(st, name, env).value == FeedSummary(source.id, name, IngestionComplete, None, source, items.value)
                  && MarkerIs(Run(st, name, env).store, name, doc.updated))
  {
    var doc := Document(st, name, env);
    var items := IngestItems(st, name, doc.items, env);
    SourceIsUnique(st, name, env);
    if env.fails(SetLastUpdated(name, doc.updated)).None? {
      MarkerUpdate(items.store, name, doc.updated);
    }
  }

  /** Exactly one source carries `name`, and its `last_updated` is `value`. */
  ghost predicate MarkerIs(st: Store, name: string, value: string)
  {
    && |Match(st.sources, ByName(name))| == 1
    && HasStr(Match(st.sources, ByName(name))[0].props, "last_updated", value)
  }

  /** The marker MERGE/SET on a uniquely named source rewrites only that source's `last_updated`. */
  lemma MarkerUpdate(st: Store, name: string, value: string)
    requires |Match(st.sources, ByName(name))| == 1
    ensures var n := Match(st.sources, ByName(name))[0];
            Match(SetLastUpdatedInto(st, name, value).sources, ByName(name))
            == [Node(n.id, n.props["last_updated" := Str(value)])]
    ensures MarkerIs(SetLastUpdatedInto(st, name, value), name, value)
  {
    MatchAfterSet(st.sources, name, "last_updated", Str(value));
  }

  /** Setting a property other than `name` never changes which nodes match by name, only their properties. */
  lemma {:induction false} MatchAfterSet(nodes: seq<Node>, name: string, key: string, value: Value)
    requires key != "name"
    ensures Match(SetPropOn(nodes, name, key, value), ByName(name))
            == seq(|Match(nodes, ByName(name))|, i requires 0 <= i < |Match(nodes, ByName(name))| =>
                 Node(Match(nodes, ByName(name))[i].id, Match(nodes, ByName(name))[i].props[key := value]))
    decreases |nodes|
  {
    if |nodes| > 0 {
      var init := nodes[..|nodes| - 1];
      var last := nodes[|nodes| - 1];
      MatchAfterSet(init, name, key, value);
      var updated := SetPropOn(nodes, name, key, value);
      assert updated[..|updated| - 1] == SetPropOn(init, name, key, value);
      assert updated[|updated| - 1] == (if Matches(last, ByName(name))
                                        then Node(last.id, last.props[key := value]) else last);
    }
  }

  /**
    A second run with the same document marker writes nothing: after a run that
    completed its marker update, running again against the same feed stops at
    the change check (or dies on a store failure before any write).
   */
  lemma SecondRunWritesNothing(st: Store, name: string, env: Env)
    requires Run(st, name, env).Done?
    requires Run(st, name, env).value.status == IngestionComplete
    ensures Run(Run(st, name, env).store, name, env).store == Run(st, name, env).store
  {
    var source := LookupSource(st, name, env.fails).value;
    var doc := Document(st, name, env);
    SourceIsUnique(st, name, env);
    var items := IngestItems(st, name, doc.items, env);
    var st1 := items.store;
    var st2 := SetLastUpdatedInto(st1, name, doc.updated);
    assert Run(st, name, env).store == st2;
    MarkerUpdate(st1, name, doc.updated);
    var n := Match(st.sources, ByName(name))[0];
    assert st1.sources == st.sources;
    var n' := Node(n.id, n.props["last_updated" := Str(doc.updated)]);
    assert Match(st2.sources, ByName(name)) == [n'];
    var again := LookupSource(st2, name, env.fails);
    if again.Found? {
      assert again.value == DecodeFeed(n').value;
      assert again.value.url == source.url;
      assert again.value.lastUpdate == doc.updated;
    }
  }

  /** The item loop, one step at a time. */
  lemma ItemsUnfold(st: Store, sourceName: string, items: seq<Item>, env: Env)
    requires |Match(st.sources, ByName(sourceName))| == 1
    requires |items| > 0
    requires IngestItems(st, sourceName, items, env).Done?
    ensures var first := IngestItem(st, sourceName, items[0], env);
            var all := IngestItems(st, sourceName, items, env);
            && first.Done?
            && |Match(first.store.sources, ByName(sourceName))| == 1
            && IngestItems(first.store, sourceName, items[1..], env).Done?
            && all.store == IngestItems(first.store, sourceName, items[1..], env).store
            && all.value == [first.value] + IngestItems(first.store, sourceName, items[1..], env).value
  {
  }

  /** The author loop, one step at a time. */
  lemma AuthorsUnfold(st: Store, item: Item, articleId: nat, authors: seq<Person>, env: Env)
    requires Match(st.articles, ArticleKey(item)) == [Node(articleId, ArticleProps(item))]
    requires |authors| > 0
    requires IngestAuthor(st, item, articleId, authors[0], env).Done?
    ensures var first := IngestAuthor(st, item, articleId, authors[0], env);
            var all := IngestAuthors(st, item, articleId, authors, env);
            && Match(first.store.articles, ArticleKey(item)) == [Node(articleId, ArticleProps(item))]
            && all.store == IngestAuthors(first.store, item, articleId, authors[1..], env).store
            && all.Done? == IngestAuthors(first.store, item, articleId, authors[1..], env).Done?
            && (all.Done? ==> all.value == [first.value] + IngestAuthors(first.store, item, articleId, authors[1..], env).value)
  {
  }

  /** How an item's pass ends once its article is in: with the author loop's outcome. */
  function AfterAuthors(o: Outcome<seq<AuthorSummary>>, articleId: nat, item: Item): Outcome<EntrySummary>
  {
    match o
    case Died(st2) => Died(st2)
    case Done(st2, authors) => Done(st2, EntrySummary(Element(articleId), item.title, item.link, Inserted, None, authors))
  }

  /** The insert path of one item's pass: the article CREATE, then the author loop. */
  lemma InsertUnfold(st: Store, sourceName: string, item: Item, env: Env)
    requires |Match(st.sources, ByName(sourceName))| == 1
    requires LookupArticle(st, item.title, item.link, env.fails).Absent?
    requires env.fails(InsertArticle(item.title, item.link, sourceName)).None?
    ensures Match(InsertArticleInto(st, item, sourceName, env.today).articles, ArticleKey(item))
            == [Node(st.nextId, ArticleProps(item))]
    ensures IngestItem(st, sourceName, item, env)
            == AfterAuthors(IngestAuthors(InsertArticleInto(st, item, sourceName, env.today), item, st.nextId, item.authors, env),
                            st.nextId, item)
  {
    MatchAppend(st.articles, Node(st.nextId, ArticleProps(item)), ArticleKey(item));
    assert Returned(LookupArticle(st, item.title, item.link, env.fails), EmptyEntry) == (EmptyEntry, None);
  }

  /** A run past its guards: the item loop over the fetched items, then the marker update. */
  lemma RunUnfold(st: Store, name: string, env: Env)
    requires LookupSource(st, name, env.fails).Found?
    requires var response := env.fetch(LookupSource(st, name, env.fails).value.url);
             response.Fetched? && response.statusCode <= 300
             && LookupSource(st, name, env.fails).value.lastUpdate != response.feed.updated
    ensures |Match(st.sources, ByName(name))| == 1
    ensures var feed := LookupSource(st, name, env.fails).value;
            Run(st, name, env)
            == Finish(IngestItems(st, name, env.fetch(feed.url).feed.items, env), name, feed, env.fetch(feed.url).feed.updated, env)
  {
  }

  /** An article already present under (title, link) stays the only one there through any item. */
  lemma ItemKeepsKey(st: Store, sourceName: string, item: Item, env: Env, key: Pattern, n: Node)
    requires |Match(st.sources, ByName(sourceName))| == 1
    requires key.ByNameAndUrl?
    requires Match(st.articles, key) == [n]
    ensures Match(IngestItem(st, sourceName, item, env).store.articles, key) == [n]
  {
    var r := IngestItem(st, sourceName, item, env);
    if r.store.articles != st.articles {
      var added := Node(st.nextId, ArticleProps(item));
      MatchAppend(st.articles, added, key);
      assert !Matches(added, key);
    }
  }

  /** ... and through any sequence of items, whatever their outcome. */
  lemma {:induction false} ItemsKeepKey(st: Store, sourceName: string, items: seq<Item>, env: Env, key: Pattern, n: Node)
    requires |Match(st.sources, ByName(sourceName))| == 1
    requires key.ByNameAndUrl?
    requires Match(st.articles, key) == [n]
    ensures Match(IngestItems(st, sourceName, items, env).store.articles, key) == [n]
    decreases |items|
  {
    if |items| > 0 {
      ItemKeepsKey(st, sourceName, items[0], env, key, n);
      var first := IngestItem(st, sourceName, items[0], env);
      if first.Done? {
        ItemsKeepKey(first.store, sourceName, items[1..], env, key, n);
      }
    }
  }

  /** An item whose (title, link) already names exactly one stored article is skipped, pointing at it. */
  lemma {:induction false} StoredDuplicateSkipped(st: Store, sourceName: string, items: seq<Item>, env: Env, j: nat, n: Node)
    requires |Match(st.sources, ByName(sourceName))| == 1
    requires j < |items|
    requires Match(st.articles, ArticleKey(items[j])) == [n]
    requires DecodeEntry(n).Some?
    requires IngestItems(st, sourceName, items, env).Done?
    ensures IngestItems(st, sourceName, items, env).value[j]
            == EntrySummary(Element(n.id), items[j].title, items[j].link, AlreadyExists, None, [])
    decreases |items|
  {
    var first := IngestItem(st, sourceName, items[0], env);
    if j == 0 {
      var found := LookupArticle(st, items[0].title, items[0].link, env.fails);
      assert Match(st.articles, ByNameAndUrl(items[0].title, items[0].link)) == [n];
      assert !found.Fatal?;
      assert found.Found?;
    } else {
      ItemKeepsKey(st, sourceName, items[0], env, ArticleKey(items[j]), n);
      assert items[1..][j - 1] == items[j];
      StoredDuplicateSkipped(first.store, sourceName, items[1..], env, j - 1, n);
    }
  }

  /**
    Duplicate suppression inside one run: when item i was inserted, a later item
    j with the same (title, link) is skipped and points at the article item i created.
   */
  lemma {:induction false} InsertedThenSkipped(st: Store, sourceName: string, items: seq<Item>, env: Env, i: nat, j: nat)
    requires |Match(st.sources, ByName(sourceName))| == 1
    requires i < j < |items|
    requires items[i].title == items[j].title && items[i].link == items[j].link
    requires IngestItems(st, sourceName, items, env).Done?
    requires IngestItems(st, sourceName, items, env).value[i].status == Inserted
    ensures var entries := IngestItems(st, sourceName, items, env).value;
            entries[j] == EntrySummary(entries[i].id, items[j].title, items[j].link, AlreadyExists, None, [])
  {
    assert InsertedBefore(st, sourceName, items, env, i, j);
    InsertedThenSkippedAt(st, sourceName, items, env, i, j);
  }

  /** Items i and j carry the same (title, link). */
  predicate SameKeyAt(items: seq<Item>, i: nat, j: nat)
  {
    i < |items| && j < |items| && ArticleKey(items[i]) == ArticleKey(items[j])
  }

  /** Entry j reports item j as already stored, pointing at the article of entry i. */
  predicate SkippedAt(entries: seq<EntrySummary>, items: seq<Item>, i: nat, j: nat)
  {
    && i < |entries| && j < |entries| && j < |items|
    && entries[j] == EntrySummary(entries[i].id, items[j].title, items[j].link, AlreadyExists, None, [])
  }

  /** Item i of the run, which shares its key with item j, was inserted. */
  predicate InsertedBefore(st: Store, sourceName: string, items: seq<Item>, env: Env, i: nat, j: nat)
  {
    && |Match(st.sources, ByName(sourceName))| == 1
    && i < j < |items|
    && SameKeyAt(items, i, j)
    && IngestItems(st, sourceName, items, env).Done?
    && i < |IngestItems(st, sourceName, items, env).value|
    && IngestItems(st, sourceName, items, env).value[i].status == Inserted
  }

  /** `InsertedThenSkipped`, by induction on i. */
  lemma {:induction false} InsertedThenSkippedAt(st: Store, sourceName: string, items: seq<Item>, env: Env, i: nat, j: nat)
    requires InsertedBefore(st, sourceName, items, env, i, j)
    ensures IngestItems(st, sourceName, items, env).Done?
    ensures SkippedAt(IngestItems(st, sourceName, items, env).value, items, i, j)
    decreases |items|, 1
  {
    if i == 0 {
      InsertedFirstThenSkipped(st, sourceName, items, env, j);
    } else {
      InsertedLaterThenSkipped(st, sourceName, items, env, i, j);
    }
  }

  /** The inductive step: drop the first item and shift both positions down by one. */
  lemma {:induction false} InsertedLaterThenSkipped(st: Store, sourceName: string, items: seq<Item>, env: Env, i: nat, j: nat)
    requires 0 < i
    requires InsertedBefore(st, sourceName, items, env, i, j)
    ensures IngestItems(st, sourceName, items, env).Done?
    ensures SkippedAt(IngestItems(st, sourceName, items, env).value, items, i, j)
    decreases |items|, 0
  {
    var st1, rest := ShiftPair(st, sourceName, items, env, i, j);
    InsertedThenSkippedAt(st1, sourceName, rest, env, i - 1, j - 1);
  }

  /** Positions i and j of the run are positions i - 1 and j - 1 of the rest, run on the store the first item left. */
  lemma ShiftPair(st: Store, sourceName: string, items: seq<Item>, env: Env, i: nat, j: nat) returns (st1: Store, rest: seq<Item>)
    requires 0 < i
    requires InsertedBefore(st, sourceName, items, env, i, j)
    ensures |rest| == |items| - 1
    ensures InsertedBefore(st1, sourceName, rest, env, i - 1, j - 1)
    // the claim for the rest carries over to the whole run
    ensures SkippedAt(IngestItems(st1, sourceName, rest, env).value, rest, i - 1, j - 1) ==>
              SkippedAt(IngestItems(st, sourceName, items, env).value, items, i, j)
  {
    var x;
    st1, x := ItemsStep(st, sourceName, items, env);
    rest := items[1..];
    var all := IngestItems(st, sourceName, items, env).value;
    var tail := IngestItems(st1, sourceName, rest, env).value;
    ConsIndex(all, x, tail, i);
    ConsIndex(all, x, tail, j);
    assert rest[i - 1] == items[i] && rest[j - 1] == items[j];
  }

  /** The item loop, one step at a time, without naming the first item's pass. */
  lemma ItemsStep(st: Store, sourceName: string, items: seq<Item>, env: Env) returns (st1: Store, x: EntrySummary)
    requires |Match(st.sources, ByName(sourceName))| == 1
    requires |items| > 0
    requires IngestItems(st, sourceName, items, env).Done?
    ensures st1 == IngestItem(st, sourceName, items[0], env).store
    ensures |Match(st1.sources, ByName(sourceName))| == 1
    ensures IngestItems(st1, sourceName, items[1..], env).Done?
    ensures IngestItems(st, sourceName, items, env).value == [x] + IngestItems(st1, sourceName, items[1..], env).value
  {
    ItemsUnfold(st, sourceName, items, env);
    var first := IngestItem(st, sourceName, items[0], env);
    st1, x := first.store, first.value;
  }

  /** Position k > 0 of `[x] + tail` is position k - 1 of `tail`. */
  lemma ConsIndex<T>(all: seq<T>, x: T, tail: seq<T>, k: nat)
    requires all == [x] + tail
    requires 0 < k < |all|
    ensures all[k] == tail[k - 1]
  {
  }

  /** The base case: the first item was inserted, so a later duplicate finds its article. */
  lemma InsertedFirstThenSkipped(st: Store, sourceName: string, items: seq<Item>, env: Env, j: nat)
    requires |Match(st.sources, ByName(sourceName))| == 1
    requires 0 < j < |items|
    requires SameKeyAt(items, 0, j)
    requires IngestItems(st, sourceName, items, env).Done?
    requires IngestItems(st, sourceName, items, env).value[0].status == Inserted
    ensures SkippedAt(IngestItems(st, sourceName, items, env).value, items, 0, j)
  {
    var added := Node(st.nextId, ArticleProps(items[0]));
    var st1, x := FirstInserted(st, sourceName, items, env);
    var rest := items[1..];
    SameKeyAsFirst(items, j);
    StoredDuplicateSkipped(st1, sourceName, rest, env, j - 1, added);
    SkippedAfterFirst(IngestItems(st, sourceName, items, env).value, x,
                      IngestItems(st1, sourceName, rest, env).value, items, j);
  }

  /** The first pass of a run whose first item was inserted leaves that article alone under its key. */
  lemma FirstInserted(st: Store, sourceName: string, items: seq<Item>, env: Env) returns (st1: Store, x: EntrySummary)
    requires |Match(st.sources, ByName(sourceName))| == 1
    requires 0 < |items|
    requires IngestItems(st, sourceName, items, env).Done?
    requires IngestItems(st, sourceName, items, env).value[0].status == Inserted
    ensures |Match(st1.sources, ByName(sourceName))| == 1
    ensures Match(st1.articles, ArticleKey(items[0])) == [Node(st.nextId, ArticleProps(items[0]))]
    ensures DecodeEntry(Node(st.nextId, ArticleProps(items[0]))).Some?
    ensures x.id == Element(st.nextId)
    ensures IngestItems(st1, sourceName, items[1..], env).Done?
    ensures IngestItems(st, sourceName, items, env).value == [x] + IngestItems(st1, sourceName, items[1..], env).value
  {
    ItemsUnfold(st, sourceName, items, env);
    var first := IngestItem(st, sourceName, items[0], env);
    InsertedMatchesAlone(st, sourceName, items[0], env);
    st1, x := first.store, first.value;
  }

  /** Item j, seen at j - 1 once the first item is dropped, has the first item's (title, link). */
  lemma SameKeyAsFirst(items: seq<Item>, j: nat)
    requires 0 < j < |items|
    requires SameKeyAt(items, 0, j)
    ensures ArticleKey(items[1..][j - 1]) == ArticleKey(items[0])
  {
    assert items[1..][j - 1] == items[j];
  }

  /** The skip entry found at j - 1 of the tail, pointing at the first entry's article, is the one at j. */
  lemma SkippedAfterFirst(all: seq<EntrySummary>, x: EntrySummary, tail: seq<EntrySummary>, items: seq<Item>, j: nat)
    requires all == [x] + tail
    requires 0 < j < |items| && |tail| == |items| - 1
    requires tail[j - 1] == EntrySummary(x.id, items[1..][j - 1].title, items[1..][j - 1].link, AlreadyExists, None, [])
    ensures all[j] == EntrySummary(all[0].id, items[j].title, items[j].link, AlreadyExists, None, [])
  {
    assert all[0] == x && all[j] == tail[j - 1];
    assert items[1..][j - 1] == items[j];
  }

  /** Right after an item is inserted, its article is the only one under its (title, link). */
  lemma InsertedMatchesAlone(st: Store, sourceName: string, item: Item, env: Env)
    requires |Match(st.sources, ByName(sourceName))| == 1
    requires IngestItem(st, sourceName, item, env).Done?
    requires IngestItem(st, sourceName, item, env).value.status == Inserted
    ensures Match(IngestItem(st, sourceName, item, env).store.articles, ArticleKey(item))
            == [Node(st.nextId, ArticleProps(item))]
    ensures DecodeEntry(Node(st.nextId, ArticleProps(item))).Some?
    ensures IngestItem(st, sourceName, item, env).value.id == Element(st.nextId)
  {
    OnlyNewMatches(st.articles, Node(st.nextId, ArticleProps(item)), ArticleKey(item));
  }

  /**
    Per-item isolation: an item whose insert failed leaves the store as it was,
    so the items after it are processed exactly as if it had not been listed.
   */
  lemma FailedItemIsTransparent(st: Store, sourceName: string, item: Item, rest: seq<Item>, env: Env)
    requires |Match(st.sources, ByName(sourceName))| == 1
    requires LookupArticle(st, item.title, item.link, env.fails).Absent?
    requires env.fails(InsertArticle(item.title, item.link, sourceName)).Some?
    ensures var all := IngestItems(st, sourceName, [item] + rest, env);
            var tail := IngestItems(st, sourceName, rest, env);
            && all.store == tail.store
            && all.Done? == tail.Done?
            && (all.Done? ==>
                  all.value == [EntrySummary(NoId, item.title, item.link, InsertFailed,
                                             Some(QueryFailed(env.fails(InsertArticle(item.title, item.link, sourceName)).value)), [])]
                               + tail.value)
  {
    assert ([item] + rest)[1..] == rest;
  }

  /**
    Per-author isolation: an author whose lookup-to-edge step recorded an
    error leaves the store as it was, so its later siblings see exactly what
    they would have seen without it.
   */
  lemma FailedAuthorIsTransparent(st: Store, item: Item, articleId: nat, p: Person, rest: seq<Person>, env: Env)
    requires Match(st.articles, ArticleKey(item)) == [Node(articleId, ArticleProps(item))]
    requires IngestAuthor(st, item, articleId, p, env).Done?
    requires IngestAuthor(st, item, articleId, p, env).value.error.Some?
    ensures var all := IngestAuthors(st, item, articleId, [p] + rest, env);
            var tail := IngestAuthors(st, item, articleId, rest, env);
            && all.store == tail.store
            && all.Done? == tail.Done?
            && (all.Done? ==> all.value == [IngestAuthor(st, item, articleId, p, env).value] + tail.value)
  {
    assert ([p] + rest)[1..] == rest;
  }

  /**
    Author reuse: a new name listed twice on one item yields one author node and
    two WROTE edges (the second pass finds the node the first one merged).
   */
  lemma RepeatedAuthorTwoEdges(st: Store, item: Item, articleId: nat, p: Person, env: Env)
    requires Match(st.articles, ArticleKey(item)) == [Node(articleId, ArticleProps(item))]
    requires |Match(st.authors, ByName(p.name))| == 0
    requires env.fails(FindAuthor(p.name)).None?
    requires env.fails(CreateAuthor(item.title, item.link, p.name, p.email)).None?
    requires env.fails(LinkAuthor(item.title, item.link, p.name)).None?
    ensures var r := IngestAuthors(st, item, articleId, [p, p], env);
            && r.Done?
            && r.store.authors == st.authors + [Node(st.nextId, AuthorProps(p))]
            && r.store.wrote == st.wrote + [Wrote(st.nextId, articleId), Wrote(st.nextId, articleId)]
            && r.value[0].status == NewAuthorCreated
            && r.value[1].status == ExistingAuthorLinked
  {
    var newAuthor := Node(st.nextId, AuthorProps(p));
    var w := Wrote(st.nextId, articleId);
    FirstPassCreates(st, item, articleId, p, env);
    var st1 := st.(authors := st.authors + [newAuthor], wrote := st.wrote + [w], nextId := st.nextId + 1);
    OnlyNewMatches(st.authors, newAuthor, ByName(p.name));
    SecondPassLinks(st1, item, articleId, p, newAuthor, env);
    TwoAuthors(st, item, articleId, p, p, env);
    AppendTwice(st.wrote, w);
  }

  lemma AppendTwice<T>(s: seq<T>, w: T)
    ensures s + [w] + [w] == s + [w, w]
  {
  }

  /** An absent author, with no statement failing, becomes one node with one edge to the article. */
  lemma FirstPassCreates(st: Store, item: Item, articleId: nat, p: Person, env: Env)
    requires Match(st.articles, ArticleKey(item)) == [Node(articleId, ArticleProps(item))]
    requires |Match(st.authors, ByName(p.name))| == 0
    requires env.fails(FindAuthor(p.name)).None?
    requires env.fails(CreateAuthor(item.title, item.link, p.name, p.email)).None?
    ensures var r := IngestAuthor(st, item, articleId, p, env);
            && r.Done?
            && r.value.status == NewAuthorCreated
            && r.store == st.(authors := st.authors + [Node(st.nextId, AuthorProps(p))],
                              wrote := st.wrote + [Wrote(st.nextId, articleId)],
                              nextId := st.nextId + 1)
  {
    assert LookupAuthor(st, p.name, env.fails).Absent?;
  }

  /** A loop over two authors is the first pass, then the second from the store the first left. */
  lemma TwoAuthors(st: Store, item: Item, articleId: nat, p: Person, q: Person, env: Env)
    requires Match(st.articles, ArticleKey(item)) == [Node(articleId, ArticleProps(item))]
    requires IngestAuthor(st, item, articleId, p, env).Done?
    requires IngestAuthor(IngestAuthor(st, item, articleId, p, env).store, item, articleId, q, env).Done?
    ensures var first := IngestAuthor(st, item, articleId, p, env);
            var second := IngestAuthor(first.store, item, articleId, q, env);
            IngestAuthors(st, item, articleId, [p, q], env) == Done(second.store, [first.value, second.value])
  {
    var first := IngestAuthor(st, item, articleId, p, env);
    AuthorsUnfold(st, item, articleId, [p, q], env);
    assert [p, q][1..] == [q];
    OneAuthor(first.store, item, articleId, q, env);
    assert [first.value] + [IngestAuthor(first.store, item, articleId, q, env).value]
        == [first.value, IngestAuthor(first.store, item, articleId, q, env).value];
  }

  /** A loop over one author is that author's pass. */
  lemma OneAuthor(st: Store, item: Item, articleId: nat, q: Person, env: Env)
    requires Match(st.articles, ArticleKey(item)) == [Node(articleId, ArticleProps(item))]
    requires IngestAuthor(st, item, articleId, q, env).Done?
    ensures var one := IngestAuthor(st, item, articleId, q, env);
            IngestAuthors(st, item, articleId, [q], env) == Done(one.store, [one.value])
  {
    var one := IngestAuthor(st, item, articleId, q, env);
    AuthorsUnfold(st, item, articleId, [q], env);
    assert [q][1..] == [];
    assert IngestAuthors(one.store, item, articleId, [], env) == Done(one.store, []);
    assert [one.value] + [] == [one.value];
  }

  /** With the author now stored once, the next pass for that name finds it and adds one edge. */
  lemma SecondPassLinks(st: Store, item: Item, articleId: nat, p: Person, author: Node, env: Env)
    requires Match(st.articles, ArticleKey(item)) == [Node(articleId, ArticleProps(item))]
    requires Match(st.authors, ByName(p.name)) == [author]
    requires env.fails(FindAuthor(p.name)).None?
    requires env.fails(LinkAuthor(item.title, item.link, p.name)).None?
    ensures var r := IngestAuthor(st, item, articleId, p, env);
            && r.Done?
            && r.value.status == ExistingAuthorLinked
            && r.store == st.(wrote := st.wrote + [Wrote(author.id, articleId)])
  {
    assert LookupAuthor(st, p.name, env.fails).Found?;
  }
}

=== FILE: lifecycle.dfy ===
/**
  How the registration handler and the ingestion run fit together: a source
  registered through `postRssFeeds` is what the next run looks up, and the
  stored `etag` plays no part in any run.
 */
module Lifecycle {
  import opened Optional
  import opened Graph
  import opened Records
  import opened Lookups
  import opened Registry
  import opened Ingest
  import opened IngestProperties

  /**
    Register, then ingest: after registering a new name, the run's source
    lookup finds exactly the submitted values under the new identity, and a
    document whose `Updated` equals the submitted `last_updated` is reported
    as having no new items and writes nothing.
   */
  lemma RegisterThenUnchangedRun(st: Store, f: RssFeed, env: Env)
    requires |Match(st.sources, ByName(f.title))| == 0
    requires env.fails(MergeSource(f.title)).None?
    requires env.fails(FindSource(f.title)).None?
    ensures var st1 := Register(st, [f], env.fails).store;
            LookupSource(st1, f.title, env.fails) == Found(f.(id := Element(st.nextId)))
    ensures var st1 := Register(st, [f], env.fails).store;
            var response := env.fetch(f.url);
            response.Fetched? && response.statusCode <= 300 && response.feed.updated == f.lastUpdate ==>
              Run(st1, f.title, env)
              == Done(st1, FeedSummary(Element(st.nextId), f.title, NoNewItems(f.title, f.lastUpdate, f.lastUpdate),
                                       None, f.(id := Element(st.nextId)), []))
  {
    RegisterNew(st, f, env.fails);
    var n := SourceNode(st.nextId, f);
    var st1 := st.(sources := st.sources + [n], nextId := st.nextId + 1);
    assert Matches(n, ByName(f.title));
    OnlyNewMatches(st.sources, n, ByName(f.title));
    NewSourceRoundTrip(st.nextId, f);
    assert LookupSource(st1, f.title, env.fails) == Found(f.(id := Element(st.nextId)));
  }

  /** `SET source.etag = $e` on the source named `name`: the only write of an etag a run could react to. */
  function Retag(st: Store, name: string, e: string): (r: Store)
    ensures r.articles == st.articles && r.authors == st.authors
    ensures r.contains == st.contains && r.wrote == st.wrote && r.nextId == st.nextId
    ensures |r.sources| == |st.sources|
  {
    st.(sources := SetPropOn(st.sources, name, "etag", Str(e)))
  }

  /** The same outcome, with the source nodes of its store replaced by `s`. */
  function WithSources<T>(o: Outcome<T>, s: seq<Node>): Outcome<T>
  {
    match o
    case Done(st, v) => Done(st.(sources := s), v)
    case Died(st) => Died(st.(sources := s))
  }

  /** The author loop never reads a source node. */
  lemma AuthorIgnoresSources(st: Store, s: seq<Node>, item: Item, articleId: nat, p: Person, env: Env)
    requires Match(st.articles, ArticleKey(item)) == [Node(articleId, ArticleProps(item))]
    ensures IngestAuthor(st.(sources := s), item, articleId, p, env)
            == WithSources(IngestAuthor(st, item, articleId, p, env), s)
  {
    assert LookupAuthor(st.(sources := s), p.name, env.fails) == LookupAuthor(st, p.name, env.fails);
    if !LookupAuthor(st, p.name, env.fails).Fatal? {
      var existing := Returned(LookupAuthor(st, p.name, env.fails), EmptyAuthor).0;
      AuthorBranchesIgnoreSources(st, s, item, articleId, p, existing, env);
    }
  }

  /** Neither branch of the author step reads or writes source nodes. */
  lemma AuthorBranchesIgnoreSources(st: Store, s: seq<Node>, item: Item, articleId: nat, p: Person, existing: RssAuthor, env: Env)
    ensures LinkExisting(st.(sources := s), item, existing, env) == WithSources(LinkExisting(st, item, existing, env), s)
    ensures CreateNew(st.(sources := s), item, articleId, p, env) == WithSources(CreateNew(st, item, articleId, p, env), s)
  {
    assert LinkAuthorInto(st.(sources := s), item, existing.name) == LinkAuthorInto(st, item, existing.name).(sources := s);
    assert MergeAuthorInto(st.(sources := s), item, p) == MergeAuthorInto(st, item, p).(sources := s);
  }

  lemma {:induction false} AuthorsIgnoreSources(st: Store, s: seq<Node>, item: Item, articleId: nat, authors: seq<Person>, env: Env)
    requires Match(st.articles, ArticleKey(item)) == [Node(articleId, ArticleProps(item))]
    ensures IngestAuthors(st.(sources := s), item, articleId, authors, env)
            == WithSources(IngestAuthors(st, item, articleId, authors, env), s)
    decreases |authors|
  {
    if |authors| > 0 {
      AuthorIgnoresSources(st, s, item, articleId, authors[0], env);
      var first := IngestAuthor(st, item, articleId, authors[0], env);
      if first.Done? {
        AuthorsIgnoreSources(first.store, s, item, articleId, authors[1..], env);
      }
    }
  }

  /** The item loop reads the source nodes only for the identity of the one source matched by name. */
  lemma ItemIgnoresSources(st: Store, s: seq<Node>, sourceName: string, item: Item, env: Env)
    requires |Match(st.sources, ByName(sourceName))| == 1
    requires |Match(s, ByName(sourceName))| == 1
    requires Match(s, ByName(sourceName))[0].id == Match(st.sources, ByName(sourceName))[0].id
    ensures IngestItem(st.(sources := s), sourceName, item, env)
            == WithSources(IngestItem(st, sourceName, item, env), s)
  {
    var st' := st.(sources := s);
    assert LookupArticle(st', item.title, item.link, env.fails) == LookupArticle(st, item.title, item.link, env.fails);
    var found := LookupArticle(st, item.title, item.link, env.fails);
    if found.Absent? && env.fails(InsertArticle(item.title, item.link, sourceName)).None? {
      InsertIgnoresSources(st, s, sourceName, item, env);
    }
  }

  lemma InsertIgnoresSources(st: Store, s: seq<Node>, sourceName: string, item: Item, env: Env)
    requires |Match(st.sources, ByName(sourceName))| == 1
    requires |Match(s, ByName(sourceName))| == 1
    requires Match(s, ByName(sourceName))[0].id == Match(st.sources, ByName(sourceName))[0].id
    requires LookupArticle(st, item.title, item.link, env.fails).Absent?
    requires env.fails(InsertArticle(item.title, item.link, sourceName)).None?
    ensures IngestItem(st.(sources := s), sourceName, item, env)
            == WithSources(IngestItem(st, sourceName, item, env), s)
  {
    var st' := st.(sources := s);
    assert LookupArticle(st', item.title, item.link, env.fails) == LookupArticle(st, item.title, item.link, env.fails);
    InsertUnfold(st, sourceName, item, env);
    InsertUnfold(st', sourceName, item, env);
    var st1 := InsertArticleInto(st, item, sourceName, env.today);
    ContainsFromSingle(Match(st.sources, ByName(sourceName))[0], st.nextId, env.today);
    ContainsFromSingle(Match(s, ByName(sourceName))[0], st.nextId, env.today);
    assert Match(st.sources, ByName(sourceName)) == [Match(st.sources, ByName(sourceName))[0]];
    assert Match(s, ByName(sourceName)) == [Match(s, ByName(sourceName))[0]];
    assert InsertArticleInto(st', item, sourceName, env.today) == st1.(sources := s);
    MatchAppend(st.articles, Node(st.nextId, ArticleProps(item)), ArticleKey(item));
    AuthorsIgnoreSources(st1, s, item, st.nextId, item.authors, env);
    WithSourcesAfterAuthors(IngestAuthors(st1, item, st.nextId, item.authors, env), s, st.nextId, item);
  }

  lemma WithSourcesAfterAuthors(o: Outcome<seq<AuthorSummary>>, s: seq<Node>, articleId: nat, item: Item)
    ensures AfterAuthors(WithSources(o, s), articleId, item) == WithSources(AfterAuthors(o, articleId, item), s)
  {
  }

  lemma {:induction false} ItemsIgnoreSources(st: Store, s: seq<Node>, sourceName: string, items: seq<Item>, env: Env)
    requires |Match(st.sources, ByName(sourceName))| == 1
    requires |Match(s, ByName(sourceName))| == 1
    requires Match(s, ByName(sourceName))[0].id == Match(st.sources, ByName(sourceName))[0].id
    ensures IngestItems(st.(sources := s), sourceName, items, env)
            == WithSources(IngestItems(st, sourceName, items, env), s)
    decreases |items|
  {
    if |items| > 0 {
      ItemIgnoresSources(st, s, sourceName, items[0], env);
      var first := IngestItem(st, sourceName, items[0], env);
      if first.Done? {
        ItemsIgnoreSources(first.store, s, sourceName, items[1..], env);
      }
    }
  }

  /** The decode copies `etag` and reads nothing else from it. */
  lemma DecodeRetag(n: Node, e: string)
    ensures DecodeFeed(Node(n.id, n.props["etag" := Str(e)]))
            == if DecodeFeed(n).Some? then Some(DecodeFeed(n).value.(etag := e)) else None
  {
  }

  /** The source lookup after a new etag differs from the one before only in the etag it reports. */
  lemma LookupRetag(st: Store, name: string, e: string, fails: Oracle)
    ensures LookupSource(Retag(st, name, e), name, fails)
            == if LookupSource(st, name, fails).Found?
               then Found(LookupSource(st, name, fails).value.(etag := e))
               else LookupSource(st, name, fails)
  {
    MatchAfterSet(st.sources, name, "etag", Str(e));
    var m := Match(st.sources, ByName(name));
    if |m| == 1 {
      DecodeRetag(m[0], e);
    }
  }

  /** Two SETs of different properties on the same nodes commute. */
  lemma SetsCommute(nodes: seq<Node>, name: string, k1: string, v1: Value, k2: string, v2: Value)
    requires k1 != k2 && k1 != "name" && k2 != "name"
    ensures SetPropOn(SetPropOn(nodes, name, k1, v1), name, k2, v2)
            == SetPropOn(SetPropOn(nodes, name, k2, v2), name, k1, v1)
  {
    var a := SetPropOn(SetPropOn(nodes, name, k1, v1), name, k2, v2);
    var b := SetPropOn(SetPropOn(nodes, name, k2, v2), name, k1, v1);
    forall i | 0 <= i < |nodes|
      ensures a[i] == b[i]
    {
      if Matches(nodes[i], ByName(name)) {
        assert nodes[i].props[k1 := v1][k2 := v2] == nodes[i].props[k2 := v2][k1 := v1];
      }
    }
  }

  /**
    The stored etag is never consulted: a run over a store whose source carries
    a different etag makes the same decisions, dies in the same cases, writes
    the same nodes and edges, and reports the same summary except for the etag
    echoed in its `RssFeed`.
   */
  lemma EtagNotConsulted(st: Store, name: string, e: string, env: Env)
    ensures var r := Run(st, name, env);
            var r' := Run(Retag(st, name, e), name, env);
            && r'.Died? == r.Died?
            && r'.store == Retag(r.store, name, e)
            && (r.Done? ==>
                  r'.value == r.value.(rssFeed := if LookupSource(st, name, env.fails).Found?
                                                  then r.value.rssFeed.(etag := e)
                                                  else r.value.rssFeed))
  {
    LookupRetag(st, name, e, env.fails);
    var source := LookupSource(st, name, env.fails);
    if source.Found? {
      var feed := source.value;
      var response := env.fetch(feed.url);
      if response.Fetched? && response.statusCode <= 300 && feed.lastUpdate != response.feed.updated {
        RunIngestsRetagged(st, name, e, env);
      }
    }
  }

  /** The ingesting branch of `EtagNotConsulted`: the item loop and the marker update. */
  lemma RunIngestsRetagged(st: Store, name: string, e: string, env: Env)
    requires LookupSource(st, name, env.fails).Found?
    requires var response := env.fetch(LookupSource(st, name, env.fails).value.url);
             response.Fetched? && response.statusCode <= 300
             && LookupSource(st, name, env.fails).value.lastUpdate != response.feed.updated
    ensures var r := Run(st, name, env);
            var r' := Run(Retag(st, name, e), name, env);
            && r'.Died? == r.Died?
            && r'.store == Retag(r.store, name, e)
            && (r.Done? ==> r'.value == r.value.(rssFeed := r.value.rssFeed.(etag := e)))
  {
    LookupRetag(st, name, e, env.fails);
    var feed := LookupSource(st, name, env.fails).value;
    var doc := env.fetch(feed.url).feed;
    var st' := Retag(st, name, e);
    RunUnfold(st, name, env);
    RunUnfold(st', name, env);
    MatchAfterSet(st.sources, name, "etag", Str(e));
    ItemsIgnoreSources(st, st'.sources, name, doc.items, env);
    FinishRetagged(st, IngestItems(st, name, doc.items, env), name, feed, doc.updated, e, env);
  }

  /** The marker update over retagged sources is the retagged marker update (the run's source carries `name`). */
  lemma FinishRetagged(st: Store, o: Outcome<seq<EntrySummary>>, name: string, feed: RssFeed, updated: string, e: string, env: Env)
    requires o.store.sources == st.sources
    requires |Match(st.sources, ByName(name))| == 1
    requires feed.title == name
    ensures var r := Finish(o, name, feed, updated, env);
            var r' := Finish(WithSources(o, Retag(st, name, e).sources), name, feed.(etag := e), updated, env);
            && r'.Died? == r.Died?
            && r'.store == Retag(r.store, name, e)
            && (r.Done? ==> r'.value == r.value.(rssFeed := feed.(etag := e)))
  {
    if o.Done? && env.fails(SetLastUpdated(name, updated)).None? {
      MatchAfterSet(st.sources, name, "etag", Str(e));
      MatchAfterSet(st.sources, name, "last_updated", Str(updated));
      SetsCommute(st.sources, name, "etag", Str(e), "last_updated", Str(updated));
    }
  }
}

=== FILE: lookups.dfy ===
/**
  The three single-node lookups of the ingestion pass and the node->record
  decoders they share with the registration handlers.

  Outcomes: `Found` (one match, decoded), `Absent` (no match, reported as the
  zero record and a nil error), `Error` (a returned error), and `Fatal` (the
  code calls `log.Fatal`, which ends the process).
 */
module Lookups {
  import opened Optional
  import opened Graph
  import opened Records

  datatype Lookup<T> = Found(value: T) | Absent | Error(failure: Failure) | Fatal

  predicate IsStr(props: Props, key: string)
  {
    key in props && props[key].Str?
  }

  /** `props[key].(string)`, falling back to "" when the key is missing or not a string. */
  function StrOr(props: Props, key: string): string
  {
    if IsStr(props, key) then props[key].s else ""
  }

  /** `v` is what an optional string property decodes to: copied when present, "" otherwise. */
  predicate Defaulted(props: Props, key: string, v: string)
  {
    && (IsStr(props, key) ==> v == props[key].s)
    && (!IsStr(props, key) ==> v == "")
  }

  /**
    The node -> RssFeed decode (repeated verbatim in the source lookup and in
    both registration handlers). `None` is the `log.Fatal` on a missing url or name.
   */
  function DecodeFeed(n: Node): (r: Option<RssFeed>)
    ensures r.Some? <==> IsStr(n.props, "url") && IsStr(n.props, "name")
    ensures r.Some? ==>
              && r.value.id == Element(n.id)
              && HasStr(n.props, "url", r.value.url)
              && HasStr(n.props, "name", r.value.title)
              && Defaulted(n.props, "scheduled_time", r.value.executeTime)
              && Defaulted(n.props, "etag", r.value.etag)
              && Defaulted(n.props, "last_updated", r.value.lastUpdate)
  {
    if IsStr(n.props, "url") && IsStr(n.props, "name") then
      Some(RssFeed(
        Element(n.id),
        n.props["url"].s,
        n.props["name"].s,
        StrOr(n.props, "etag"),
        StrOr(n.props, "last_updated"),
        StrOr(n.props, "scheduled_time")))
    else None
  }

  /** `props[key].(int)`, falling back to 0. */
  function IntOr(props: Props, key: string): int
  {
    if key in props && props[key].Int? then props[key].i else 0
  }

  /**
    The node -> RssEntry decode of the article lookup. `None` is the `log.Fatal`
    on a missing url, name or date_posted. Description and DateExtracted are
    never read from the node.
   */
  function DecodeEntry(n: Node): (r: Option<RssEntry>)
    ensures r.Some? <==> IsStr(n.props, "url") && IsStr(n.props, "name") && IsStr(n.props, "date_posted")
    ensures r.Some? ==>
              && r.value.id == Element(n.id)
              && HasStr(n.props, "url", r.value.url)
              && HasStr(n.props, "name", r.value.title)
              && HasStr(n.props, "date_posted", r.value.datePosted)
              && Defaulted(n.props, "static_file_url", r.value.storageUrl)
              && r.value.description == ""
              && r.value.dateExtracted == 0
  {
    if IsStr(n.props, "url") && IsStr(n.props, "name") && IsStr(n.props, "date_posted") then
      Some(RssEntry(
        Element(n.id),
        n.props["url"].s,
        n.props["name"].s,
        "",
        n.props["date_posted"].s,
        0,
        IntOr(n.props, "in_static_file_storage"),
        StrOr(n.props, "static_file_url")))
    else None
  }

  /**
    The node -> RssAuthor decode of the author lookup. A node without a string
    `name` is a returned error, not absence; a missing email becomes "".
   */
  function DecodeAuthor(n: Node): (r: Lookup<RssAuthor>)
    ensures r.Found? || r.Error?
    ensures r.Error? <==> !IsStr(n.props, "name")
    ensures r.Error? ==> r.failure == AuthorWithoutName
    ensures r.Found? ==>
              && r.value.id == Element(n.id)
              && HasStr(n.props, "name", r.value.name)
              && Defaulted(n.props, "email", r.value.email)
  {
    if IsStr(n.props, "name") then
      Found(RssAuthor(Element(n.id), n.props["name"].s, StrOr(n.props, "email")))
    else Error(AuthorWithoutName)
  }

  /**
    GetRssSourceFromDatabase. A failed query, more than one match, or a
    matched node without url/name is fatal; no match is a returned error.
   */
  function LookupSource(st: Store, name: string, fails: Oracle): (r: Lookup<RssFeed>)
    ensures !r.Absent?
    ensures fails(FindSource(name)).Some? ==> r.Fatal?
    ensures r.Error? <==> fails(FindSource(name)).None? && |Match(st.sources, ByName(name))| == 0
    ensures r.Error? ==> r.failure == SourceNotFound(name)
    ensures |Match(st.sources, ByName(name))| > 1 ==> r.Fatal?
    ensures r.Found? ==>
              && fails(FindSource(name)).None?
              && |Match(st.sources, ByName(name))| == 1
              && r.value.id == Element(Match(st.sources, ByName(name))[0].id)
              && DecodeFeed(Match(st.sources, ByName(name))[0]) == Some(r.value)
              && r.value.title == name
    // a single well-formed match is always found
    ensures fails(FindSource(name)).None? && |Match(st.sources, ByName(name))| == 1
            && DecodeFeed(Match(st.sources, ByName(name))[0]).Some? ==>
              r == Found(DecodeFeed(Match(st.sources, ByName(name))[0]).value)
  {
    if fails(FindSource(name)).Some? then Fatal
    else
      var m := Match(st.sources, ByName(name));
      if |m| == 0 then Error(SourceNotFound(name))
      else if |m| > 1 then Fatal
      else
        match DecodeFeed(m[0])
        case None => Fatal
        case Some(feed) =>
          MatchMembers(st.sources, ByName(name));
          assert m[0] in m;
          Found(feed)
  }

  /**
    GetRssArticleFromDatabase. No match is absence (zero record, nil error);
    every error path of the lookup is fatal, so it never returns an error.
   */
  function LookupArticle(st: Store, title: string, url: string, fails: Oracle): (r: Lookup<RssEntry>)
    ensures !r.Error?
    ensures fails(FindArticle(title, url)).Some? ==> r.Fatal?
    ensures r.Absent? <==> fails(FindArticle(title, url)).None? && |Match(st.articles, ByNameAndUrl(title, url))| == 0
    ensures |Match(st.articles, ByNameAndUrl(title, url))| > 1 ==> r.Fatal?
    ensures r.Found? ==>
              && |Match(st.articles, ByNameAndUrl(title, url))| == 1
              && r.value.id == Element(Match(st.articles, ByNameAndUrl(title, url))[0].id)
              && r.value.title == title && r.value.url == url
    // only a failed query, several matches or an undecodable match is fatal
    ensures r.Fatal? <==>
              || fails(FindArticle(title, url)).Some?
              || |Match(st.articles, ByNameAndUrl(title, url))| > 1
              || (|Match(st.articles, ByNameAndUrl(title, url))| == 1
                  && DecodeEntry(Match(st.articles, ByNameAndUrl(title, url))[0]).None?)
  {
    if fails(FindArticle(title, url)).Some? then Fatal
    else
      var m := Match(st.articles, ByNameAndUrl(title, url));
      if |m| == 0 then Absent
      else if |m| > 1 then Fatal
      else
        match DecodeEntry(m[0])
        case None => Fatal
        case Some(entry) =>
          MatchMembers(st.articles, ByNameAndUrl(title, url));
          assert m[0] in m;
          Found(entry)
  }

  /** The article found is the decoding of the single match, and a single decodable match is always found. */
  lemma LookupArticleDecodes(st: Store, title: string, url: string, fails: Oracle)
    ensures var m := Match(st.articles, ByNameAndUrl(title, url));
            LookupArticle(st, title, url, fails).Found? <==>
              fails(FindArticle(title, url)).None? && |m| == 1 && DecodeEntry(m[0]).Some?
    ensures var m := Match(st.articles, ByNameAndUrl(title, url));
            LookupArticle(st, title, url, fails).Found? ==>
              LookupArticle(st, title, url, fails) == Found(DecodeEntry(m[0]).value)
  {
  }

  /**
    GetAuthorFromDatabase. No match is absence; a failed query or more than one
    match is fatal; a matched node without a string name is a returned error.
    Because the MATCH itself requires `name` to equal the looked-up string, that
    error cannot arise from this lookup (see the `!r.Error?` clause).
   */
  function LookupAuthor(st: Store, name: string, fails: Oracle): (r: Lookup<RssAuthor>)
    ensures !r.Error?
    ensures fails(FindAuthor(name)).Some? ==> r.Fatal?
    ensures r.Absent? <==> fails(FindAuthor(name)).None? && |Match(st.authors, ByName(name))| == 0
    ensures r.Fatal? <==> fails(FindAuthor(name)).Some? || |Match(st.authors, ByName(name))| > 1
    ensures r.Found? ==>
              && |Match(st.authors, ByName(name))| == 1
              && r.value.id == Element(Match(st.authors, ByName(name))[0].id)
              && r.value.name == name
              && r == DecodeAuthor(Match(st.authors, ByName(name))[0])
  {
    if fails(FindAuthor(name)).Some? then Fatal
    else
      var m := Match(st.authors, ByName(name));
      if |m| == 0 then Absent
      else if |m| > 1 then Fatal
      else
        MatchMembers(st.authors, ByName(name));
        assert m[0] in m;
        DecodeAuthor(m[0])
  }

  /**
    The Go `(value, err)` pair a non-fatal lookup returns: absence and errors
    both come back with the zero value.
   */
  function Returned<T>(l: Lookup<T>, zero: T): (r: (T, Option<Failure>))
    requires !l.Fatal?
    ensures r.1.Some? <==> l.Error?
    ensures l.Found? ==> r == (l.value, None)
    ensures !l.Found? ==> r.0 == zero
  {
    match l
    case Found(v) => (v, None)
    case Absent => (zero, None)
    case Error(f) => (zero, Some(f))
  }

  /** The empty-record test the pass uses decides existence exactly: a found article is never the sentinel. */
  lemma ArticleSentinel(st: Store, title: string, url: string, fails: Oracle)
    requires !LookupArticle(st, title, url, fails).Fatal?
    ensures var (e, err) := Returned(LookupArticle(st, title, url, fails), EmptyEntry);
            err.None? && (e != EmptyEntry <==> LookupArticle(st, title, url, fails).Found?)
  {
  }

  /** Likewise for authors: the all-empty RssAuthor stands for "no such author" and only for that. */
  lemma AuthorSentinel(st: Store, name: string, fails: Oracle)
    requires !LookupAuthor(st, name, fails).Fatal?
    ensures var (a, err) := Returned(LookupAuthor(st, name, fails), EmptyAuthor);
            err.None? && (a != EmptyAuthor <==> LookupAuthor(st, name, fails).Found?)
  {
  }
}

=== FILE: optional.dfy ===
/** The optional value used wherever Go falls back on a zero value or a nil error. */
module Optional {

  datatype Option<+T> = None | Some(value: T)

}

=== FILE: records.dfy ===
/**
  The record types of the ingestion pass (RssEntry, RssFeed, RssAuthor), their
  all-empty zero values, which the pass uses as "absent" sentinels, and the
  nested summary it reports: feed -> entries -> authors.
 */
module Records {
  import opened Optional

  /** A node's element identity as Go carries it: a string, empty ("") when unset. */
  datatype ElementId = NoId | Element(n: nat)

  datatype RssEntry = RssEntry(
    id: ElementId,
    url: string,
    title: string,
    description: string,
    datePosted: string,
    dateExtracted: int,
    inStorage: int,
    storageUrl: string)

  /** `RssEntry{}`: the "article absent" sentinel. */
  const EmptyEntry := RssEntry(NoId, "", "", "", "", 0, 0, "")

  datatype RssFeed = RssFeed(
    id: ElementId,
    url: string,
    title: string,
    etag: string,
    lastUpdate: string,
    executeTime: string)

  /** `RssFeed{}`: what the summary carries before a source has been loaded. */
  const EmptyFeed := RssFeed(NoId, "", "", "", "", "")

  datatype RssAuthor = RssAuthor(id: ElementId, name: string, email: string)

  /** `RssAuthor{}`: the "author absent" sentinel. */
  const EmptyAuthor := RssAuthor(NoId, "", "")

  /** The errors that reach a summary's `Error` field; `None` there is Go's "". */
  datatype Failure =
    | SourceNotFound(name: string)
    | AuthorWithoutName
    | Transport(message: string)
    | BadStatus(url: string, code: int)
    | QueryFailed(message: string)

  /** The feed-level status strings, as tags. */
  datatype FeedStatus =
    | SourceExtractionFailed
    | NoNewItems(title: string, storedLastUpdate: string, fetchedUpdated: string)
    | IngestionComplete
    | LastUpdatedWriteFailed

  /** The article-level status strings, as tags. */
  datatype EntryStatus =
    | ArticleQueryFailed
    | AlreadyExists
    | InsertFailed
    | Inserted

  /** The author-level status strings, as tags; the formatted ones keep their arguments. */
  datatype AuthorStatus =
    | AuthorQueryFailed
    | ExistingAuthorLinked
    | LinkFailed(author: string, article: string)
    | NewAuthorCreated
    | CreateFailed(author: string, article: string)

  /** `RssAuthorExtractionSummary`, one per author listed on a newly inserted item. */
  datatype AuthorSummary = AuthorSummary(
    id: ElementId,
    name: string,
    status: AuthorStatus,
    error: Option<Failure>)

  /** `RssEntryExtractionSummary`, one per feed item. */
  datatype EntrySummary = EntrySummary(
    id: ElementId,
    title: string,
    url: string,
    status: EntryStatus,
    error: Option<Failure>,
    authors: seq<AuthorSummary>)

  /** `RssFeedExtractionSummary`, the report one ingestion run returns. */
  datatype FeedSummary = FeedSummary(
    id: ElementId,
    title: string,
    status: FeedStatus,
    error: Option<Failure>,
    rssFeed: RssFeed,
    entries: seq<EntrySummary>)
}

=== FILE: registry.dfy ===
/**
  Source registration and listing (the `postRssFeeds` and `getRssFeeds`
  handlers): a conditional create that MERGEs on the source name and only
  sets the other properties ON CREATE, and the listing of every stored source.
 */
module Registry {
  import opened Optional
  import opened Graph
  import opened Records
  import opened Lookups

  /** The properties `ON CREATE SET` gives a new source (the `created` timestamp is left out). */
  function SourceProps(f: RssFeed): Props
  {
    map[
      "name" := Str(f.title),
      "url" := Str(f.url),
      "scheduled_time" := Str(f.executeTime),
      "etag" := Str(f.etag),
      "last_updated" := Str(f.lastUpdate)]
  }

  /** The node a registration of `f` creates, with identity `id`. */
  function SourceNode(id: nat, f: RssFeed): Node
  {
    Node(id, SourceProps(f))
  }

  /**
    `MERGE (rss_feed {name: $name}) ON CREATE SET ... RETURN rss_feed`: the
    store afterwards and the returned nodes. An existing name is returned
    untouched; a new one gets exactly one node with the submitted values.
   */
  function MergeSourceInto(st: Store, f: RssFeed): (r: (Store, seq<Node>))
    ensures |Match(st.sources, ByName(f.title))| > 0 ==> r == (st, Match(st.sources, ByName(f.title)))
    ensures |Match(st.sources, ByName(f.title))| == 0 ==>
              && r.0 == st.(sources := st.sources + [SourceNode(st.nextId, f)], nextId := st.nextId + 1)
              && r.1 == [SourceNode(st.nextId, f)]
  {
    var m := Match(st.sources, ByName(f.title));
    if |m| == 0 then
      var n := SourceNode(st.nextId, f);
      (st.(sources := st.sources + [n], nextId := st.nextId + 1), [n])
    else (st, m)
  }

  /** Decodes every node in order; `None` when any decode hits `log.Fatal`. */
  function DecodeAll(nodes: seq<Node>): (r: Option<seq<RssFeed>>)
    ensures r.Some? <==> forall i :: 0 <= i < |nodes| ==> DecodeFeed(nodes[i]).Some?
    ensures r.Some? ==> |r.value| == |nodes|
    ensures r.Some? ==> forall i :: 0 <= i < |nodes| ==> DecodeFeed(nodes[i]) == Some(r.value[i])
    decreases |nodes|
  {
    if |nodes| == 0 then Some([])
    else
      match DecodeFeed(nodes[0])
      case None => None
      case Some(first) =>
        match DecodeAll(nodes[1..])
        case None => None
        case Some(rest) => Some([first] + rest)
  }

  lemma DecodeOne(n: Node)
    requires DecodeFeed(n).Some?
    ensures DecodeAll([n]) == Some([DecodeFeed(n).value])
  {
    var d := DecodeFeed(n).value;
    assert [n][1..] == [];
    assert DecodeAll([n][1..]) == Some([]);
    assert [n][0] == n;
    assert DecodeFeed([n][0]) == Some(d);
    assert [d] + [] == [d];
    assert DecodeAll([n]) == Some([d] + []);
  }

  /** Source-level invariant: at most one source per name. */
  ghost predicate UniqueNames(st: Store)
  {
    forall name :: |Match(st.sources, ByName(name))| <= 1
  }

  /** Registration touches only source nodes, and only by appending. */
  ghost predicate SourcesOnlyGrow(st: Store, st': Store)
  {
    && st.sources <= st'.sources
    && st'.articles == st.articles
    && st'.authors == st.authors
    && st'.contains == st.contains
    && st'.wrote == st.wrote
    && st.nextId <= st'.nextId
  }

  /**
    postRssFeeds: register each submitted feed in order and return the decoded
    nodes the MERGEs returned. A failed query or a returned node without url
    or name ends the process.
   */
  function Register(st: Store, feeds: seq<RssFeed>, fails: Oracle): (r: Outcome<seq<RssFeed>>)
    ensures SourcesOnlyGrow(st, r.store)
    decreases |feeds|
  {
    if |feeds| == 0 then Done(st, [])
    else if fails(MergeSource(feeds[0].title)).Some? then Died(st)
    else
      var merged := MergeSourceInto(st, feeds[0]);
      match DecodeAll(merged.1)
      case None => Died(merged.0)
      case Some(decoded) =>
        match Register(merged.0, feeds[1..], fails)
        case Died(st2) => Died(st2)
        case Done(st2, rest) => Done(st2, decoded + rest)
  }

  /**
    getRssFeeds: one decoded RssFeed per stored source node, in store order.
    `None` stands for both `log.Fatal` paths of the handler: the MATCH query
    failing, and a source node whose url or name is not a string.
   */
  function ListFeeds(st: Store, fails: Oracle): (r: Option<seq<RssFeed>>)
    ensures r.Some? <==> fails(ListSources).None? && forall i :: 0 <= i < |st.sources| ==> DecodeFeed(st.sources[i]).Some?
    ensures r.Some? ==> |r.value| == |st.sources|
    ensures r.Some? ==> forall i :: 0 <= i < |st.sources| ==> Some(r.value[i]) == DecodeFeed(st.sources[i])
  {
    if fails(ListSources).Some? then None else DecodeAll(st.sources)
  }

  /** A freshly created source decodes back to exactly the submitted values, under its new identity. */
  lemma NewSourceRoundTrip(id: nat, f: RssFeed)
    ensures DecodeFeed(SourceNode(id, f)) == Some(f.(id := Element(id)))
  {
  }

  /** A new name: one node is created, holding the submitted values, and returned decoded. */
  lemma RegisterNew(st: Store, f: RssFeed, fails: Oracle)
    requires |Match(st.sources, ByName(f.title))| == 0
    requires fails(MergeSource(f.title)).None?
    ensures Register(st, [f], fails)
            == Done(st.(sources := st.sources + [SourceNode(st.nextId, f)], nextId := st.nextId + 1),
                    [f.(id := Element(st.nextId))])
  {
    NewSourceRoundTrip(st.nextId, f);
    assert [f][1..] == [];
    DecodeOne(SourceNode(st.nextId, f));
  }

  /** An existing name: nothing is overwritten; the stored node comes back decoded. */
  lemma RegisterExisting(st: Store, f: RssFeed, fails: Oracle, n: Node)
    requires Match(st.sources, ByName(f.title)) == [n]
    requires DecodeFeed(n).Some?
    requires fails(MergeSource(f.title)).None?
    ensures Register(st, [f], fails) == Done(st, [DecodeFeed(n).value])
  {
    assert [f][1..] == [];
    DecodeOne(n);
  }

  /** Registering the same name twice leaves one node, holding the first registration's values. */
  lemma RegisterTwice(st: Store, f: RssFeed, g: RssFeed, fails: Oracle)
    requires f.title == g.title
    requires |Match(st.sources, ByName(f.title))| == 0
    requires fails(MergeSource(f.title)).None?
    ensures var r := Register(st, [f, g], fails);
            && r == Done(st.(sources := st.sources + [SourceNode(st.nextId, f)], nextId := st.nextId + 1),
                         [f.(id := Element(st.nextId)), f.(id := Element(st.nextId))])
            && Match(r.store.sources, ByName(f.title)) == [SourceNode(st.nextId, f)]
  {
    var n := SourceNode(st.nextId, f);
    var st1 := st.(sources := st.sources + [n], nextId := st.nextId + 1);
    MatchAppend(st.sources, n, ByName(f.title));
    assert Match(st1.sources, ByName(f.title)) == [n];
    RegisterNew(st, f, fails);
    RegisterExisting(st1, g, fails, n);
    NewSourceRoundTrip(st.nextId, f);
    DecodeOne(n);
    var f' := f.(id := Element(st.nextId));
    assert [f, g][1..] == [g] && [f, g][0] == f;
    assert MergeSourceInto(st, f) == (st1, [n]);
    assert Register(st1, [g], fails) == Done(st1, [f']);
    assert [f'] + [f'] == [f', f'];
  }

  /** Registration keeps every source name unique. */
  lemma {:induction false} RegisterKeepsNamesUnique(st: Store, feeds: seq<RssFeed>, fails: Oracle)
    requires UniqueNames(st)
    ensures UniqueNames(Register(st, feeds, fails).store)
    decreases |feeds|
  {
    if |feeds| > 0 && fails(MergeSource(feeds[0].title)).None? {
      var f := feeds[0];
      var merged := MergeSourceInto(st, f);
      if |Match(st.sources, ByName(f.title))| == 0 {
        var n := SourceNode(st.nextId, f);
        forall name
          ensures |Match(merged.0.sources, ByName(name))| <= 1
        {
          MatchAppend(st.sources, n, ByName(name));
          if Matches(n, ByName(name)) {
            assert name == f.title;
          }
        }
      }
      if DecodeAll(merged.1).Some? {
        RegisterKeepsNamesUnique(merged.0, feeds[1..], fails);
      }
    }
  }

  /** Listing after registering a new name shows the earlier sources followed by the new one. */
  lemma ListAfterRegister(st: Store, f: RssFeed, fails: Oracle)
    requires |Match(st.sources, ByName(f.title))| == 0
    requires fails(MergeSource(f.title)).None?
    requires ListFeeds(st, fails).Some?
    ensures var r := Register(st, [f], fails);
            ListFeeds(r.store, fails) == Some(ListFeeds(st, fails).value + [f.(id := Element(st.nextId))])
  {
    RegisterNew(st, f, fails);
    var n := SourceNode(st.nextId, f);
    var sources := st.sources + [n];
    NewSourceRoundTrip(st.nextId, f);
    assert forall i :: 0 <= i < |st.sources| ==> sources[i] == st.sources[i];
    var before := ListFeeds(st, fails).value;
    var after := ListFeeds(st.(sources := sources, nextId := st.nextId + 1), fails);
    assert after.Some?;
    assert after.value == before + [f.(id := Element(st.nextId))];
  }
}

=== FILE: store_effects.dfy ===
/**
  What each write statement of the ingestion pass does to the store, stated
  through the MATCH semantics rather than through the constructions that
  implement the statements.
 */
module StoreEffects {
  import opened Graph
  import opened Ingest
  import opened IngestProperties

  /**
    The article CREATE: one new node, which becomes an extra match for the
    item's (title, link) and for no other pair, and one CONTAINS_ARTICLE edge
    dated `date` from each source named `sourceName`. Nothing else changes.
   */
  lemma InsertArticleEffect(st: Store, item: Item, sourceName: string, date: string)
    ensures var r := InsertArticleInto(st, item, sourceName, date);
            && r.sources == st.sources && r.authors == st.authors && r.wrote == st.wrote
            && r.nextId == st.nextId + 1
            && |r.articles| == |st.articles| + 1 && st.articles <= r.articles
            && Match(r.articles, ArticleKey(item))
               == Match(st.articles, ArticleKey(item)) + [Node(st.nextId, ArticleProps(item))]
            && (forall t, u :: t != item.title || u != item.link ==>
                  Match(r.articles, ByNameAndUrl(t, u)) == Match(st.articles, ByNameAndUrl(t, u)))
            && st.contains <= r.contains
            && |r.contains| == |st.contains| + |Match(st.sources, ByName(sourceName))|
            && forall e :: e in r.contains[|st.contains|..] <==>
                 && e.article == st.nextId && e.dateDownloaded == date
                 && exists s :: s in st.sources && Matches(s, ByName(sourceName)) && s.id == e.source
  {
    var r := InsertArticleInto(st, item, sourceName, date);
    var article := Node(st.nextId, ArticleProps(item));
    MatchAppend(st.articles, article, ArticleKey(item));
    forall t, u | t != item.title || u != item.link
      ensures Match(r.articles, ByNameAndUrl(t, u)) == Match(st.articles, ByNameAndUrl(t, u))
    {
      MatchAppend(st.articles, article, ByNameAndUrl(t, u));
    }
    var matched := Match(st.sources, ByName(sourceName));
    assert r.contains[|st.contains|..] == ContainsFrom(matched, st.nextId, date);
    ContainsFromMembers(matched, st.nextId, date);
    MatchMembers(st.sources, ByName(sourceName));
  }

  /**
    The WROTE CREATE after matching the article by (title, link) and the
    author by name: the new edges are exactly those from a matched author to a
    matched article, one per pair. Nothing else changes.
   */
  lemma LinkAuthorEffect(st: Store, item: Item, authorName: string)
    ensures var r := LinkAuthorInto(st, item, authorName);
            && r.sources == st.sources && r.articles == st.articles && r.authors == st.authors
            && r.contains == st.contains && r.nextId == st.nextId
            && st.wrote <= r.wrote
            && |r.wrote| == |st.wrote| + |Match(st.authors, ByName(authorName))| * |Match(st.articles, ArticleKey(item))|
            && forall e :: e in r.wrote[|st.wrote|..] <==>
                 && (exists a :: a in st.authors && Matches(a, ByName(authorName)) && a.id == e.author)
                 && (exists b :: b in st.articles && Matches(b, ArticleKey(item)) && b.id == e.article)
  {
    var r := LinkAuthorInto(st, item, authorName);
    var authors := Match(st.authors, ByName(authorName));
    var articles := Match(st.articles, ArticleKey(item));
    assert r.wrote[|st.wrote|..] == WroteAll(authors, articles);
    WroteAllMembers(authors, articles);
    MatchMembers(st.authors, ByName(authorName));
    MatchMembers(st.articles, ArticleKey(item));
  }

  /**
    The author MERGE with its WROTE CREATE. Without a matching article the
    statement matches no row and writes nothing. Otherwise a name with no
    author node gets exactly one (with the item's name and email), an existing
    author is left as it is, no other name gains or loses a node, and one edge
    is added per author now carrying the name and per matched article.
   */
  lemma MergeAuthorEffect(st: Store, item: Item, p: Person)
    ensures var r := MergeAuthorInto(st, item, p);
            && (|Match(st.articles, ArticleKey(item))| == 0 ==> r == st)
            && r.sources == st.sources && r.articles == st.articles && r.contains == st.contains
            && (|Match(st.articles, ArticleKey(item))| > 0 ==>
                  && (|Match(st.authors, ByName(p.name))| == 0 ==>
                        && r.authors == st.authors + [Node(st.nextId, AuthorProps(p))]
                        && r.nextId == st.nextId + 1
                        && Match(r.authors, ByName(p.name)) == [Node(st.nextId, AuthorProps(p))])
                  && (|Match(st.authors, ByName(p.name))| > 0 ==> r.authors == st.authors && r.nextId == st.nextId)
                  && (forall n :: n != p.name ==> Match(r.authors, ByName(n)) == Match(st.authors, ByName(n)))
                  && st.wrote <= r.wrote
                  && |r.wrote| == |st.wrote| + |Match(r.authors, ByName(p.name))| * |Match(st.articles, ArticleKey(item))|
                  && forall e :: e in r.wrote[|st.wrote|..] <==>
                       && (exists a :: a in r.authors && Matches(a, ByName(p.name)) && a.id == e.author)
                       && (exists b :: b in st.articles && Matches(b, ArticleKey(item)) && b.id == e.article))
  {
    var r := MergeAuthorInto(st, item, p);
    var created := Node(st.nextId, AuthorProps(p));
    if |Match(st.articles, ArticleKey(item))| > 0 {
      var merged :=
        if |Match(st.authors, ByName(p.name))| == 0
        then st.(authors := st.authors + [created], nextId := st.nextId + 1)
        else st;
      LinkAuthorEffect(merged, item, p.name);
      if |Match(st.authors, ByName(p.name))| == 0 {
        OnlyNewMatches(st.authors, created, ByName(p.name));
        forall n | n != p.name
          ensures Match(r.authors, ByName(n)) == Match(st.authors, ByName(n))
        {
          MatchAppend(st.authors, created, ByName(n));
        }
      }
    }
  }

  /**
    The marker statement `MERGE (source {name}) SET source.last_updated`.
    With no source of that name the MERGE creates one carrying the name and
    the marker; otherwise every source of that name, and only those, get the
    new marker, and no source is added or loses its name. Only source nodes
    change.
   */
  lemma SetLastUpdatedEffect(st: Store, name: string, value: string)
    ensures var r := SetLastUpdatedInto(st, name, value);
            && r.articles == st.articles && r.authors == st.authors
            && r.contains == st.contains && r.wrote == st.wrote
            && (forall n :: n in Match(r.sources, ByName(name)) ==> HasStr(n.props, "last_updated", value))
            && (|Match(st.sources, ByName(name))| == 0 ==>
                  && r.sources == st.sources + [Node(st.nextId, map["name" := Str(name), "last_updated" := Str(value)])]
                  && r.nextId == st.nextId + 1
                  && |Match(r.sources, ByName(name))| == 1)
            && (|Match(st.sources, ByName(name))| > 0 ==>
                  && r.nextId == st.nextId
                  && |Match(r.sources, ByName(name))| == |Match(st.sources, ByName(name))|
                  && |r.sources| == |st.sources|
                  && forall i :: 0 <= i < |st.sources| ==>
                       && r.sources[i].id == st.sources[i].id
                       && (!Matches(st.sources[i], ByName(name)) ==> r.sources[i] == st.sources[i]))
  {
    var r := SetLastUpdatedInto(st, name, value);
    if |Match(st.sources, ByName(name))| == 0 {
      var created := Node(st.nextId, map["name" := Str(name), "last_updated" := Str(value)]);
      OnlyNewMatches(st.sources, created, ByName(name));
    } else {
      MarkerSetEffect(st.sources, name, value);
    }
  }

  /** `SET n.last_updated` on the nodes named `name`: the same nodes match by name, each now carrying the marker. */
  lemma MarkerSetEffect(nodes: seq<Node>, name: string, value: string)
    ensures var updated := SetPropOn(nodes, name, "last_updated", Str(value));
            && |Match(updated, ByName(name))| == |Match(nodes, ByName(name))|
            && forall n :: n in Match(updated, ByName(name)) ==> HasStr(n.props, "last_updated", value)
  {
    var m := Match(nodes, ByName(name));
    var after := Match(SetPropOn(nodes, name, "last_updated", Str(value)), ByName(name));
    MatchAfterSet(nodes, name, "last_updated", Str(value));
    forall n | n in after
      ensures HasStr(n.props, "last_updated", value)
    {
      var k :| 0 <= k < |after| && after[k] == n;
      assert n == Node(m[k].id, m[k].props["last_updated" := Str(value)]);
    }
  }
}

=== FILE: uniqueness.dfy ===
/**
  The data-model invariant the lookups rely on: at most one article node per
  (name, url) and at most one author node per name. A run keeps both, because
  it creates an article or an author only after a lookup found none.
 */
module Uniqueness {
  import opened Graph
  import opened Lookups
  import opened Ingest
  import opened IngestProperties

  /** No two article nodes share a (name, url) pair. */
  ghost predicate UniqueArticleKeys(st: Store)
  {
    forall t, u :: |Match(st.articles, ByNameAndUrl(t, u))| <= 1
  }

  /** No two author nodes share a name. */
  ghost predicate UniqueAuthorNames(st: Store)
  {
    forall n :: |Match(st.authors, ByName(n))| <= 1
  }

  /** One author step creates a node only for a name no node carried. */
  lemma AuthorKeepsUnique(st: Store, item: Item, articleId: nat, p: Person, env: Env)
    requires Match(st.articles, ArticleKey(item)) == [Node(articleId, ArticleProps(item))]
    requires UniqueAuthorNames(st)
    ensures UniqueAuthorNames(IngestAuthor(st, item, articleId, p, env).store)
  {
    var r := IngestAuthor(st, item, articleId, p, env);
    if r.store.authors != st.authors {
      var created := Node(st.nextId, AuthorProps(p));
      assert LookupAuthor(st, p.name, env.fails).Absent?;
      assert r.store.authors == st.authors + [created];
      forall n
        ensures |Match(r.store.authors, ByName(n))| <= 1
      {
        MatchAppend(st.authors, created, ByName(n));
      }
    }
  }

  /** The author loop keeps author names unique. */
  lemma {:induction false} AuthorsKeepUnique(st: Store, item: Item, articleId: nat, authors: seq<Person>, env: Env)
    requires Match(st.articles, ArticleKey(item)) == [Node(articleId, ArticleProps(item))]
    requires UniqueAuthorNames(st)
    ensures UniqueAuthorNames(IngestAuthors(st, item, articleId, authors, env).store)
    decreases |authors|
  {
    if |authors| > 0 {
      var first := IngestAuthor(st, item, articleId, authors[0], env);
      AuthorKeepsUnique(st, item, articleId, authors[0], env);
      if first.Done? {
        AuthorsUnfold(st, item, articleId, authors, env);
        AuthorsKeepUnique(first.store, item, articleId, authors[1..], env);
      }
    }
  }

  /** One item's pass adds an article only under a (title, link) no article carried. */
  lemma ItemKeepsUniqueKeys(st: Store, sourceName: string, item: Item, env: Env)
    requires |Match(st.sources, ByName(sourceName))| == 1
    requires UniqueArticleKeys(st)
    ensures UniqueArticleKeys(IngestItem(st, sourceName, item, env).store)
  {
    var r := IngestItem(st, sourceName, item, env);
    if r.store.articles != st.articles {
      var created := Node(st.nextId, ArticleProps(item));
      assert r.store.articles == st.articles + [created];
      assert |Match(st.articles, ArticleKey(item))| == 0;
      forall t, u
        ensures |Match(r.store.articles, ByNameAndUrl(t, u))| <= 1
      {
        MatchAppend(st.articles, created, ByNameAndUrl(t, u));
      }
    }
  }

  /** One item's pass keeps author names unique: its authors are processed against its own new article. */
  lemma ItemKeepsUniqueNames(st: Store, sourceName: string, item: Item, env: Env)
    requires |Match(st.sources, ByName(sourceName))| == 1
    requires UniqueAuthorNames(st)
    ensures UniqueAuthorNames(IngestItem(st, sourceName, item, env).store)
  {
    var found := LookupArticle(st, item.title, item.link, env.fails);
    if found.Absent? && env.fails(InsertArticle(item.title, item.link, sourceName)).None? {
      InsertUnfold(st, sourceName, item, env);
      var st1 := InsertArticleInto(st, item, sourceName, env.today);
      assert st1.authors == st.authors;
      AuthorsKeepUnique(st1, item, st.nextId, item.authors, env);
    }
  }

  /** The item loop keeps both invariants, whatever each item's outcome. */
  lemma {:induction false} ItemsKeepUnique(st: Store, sourceName: string, items: seq<Item>, env: Env)
    requires |Match(st.sources, ByName(sourceName))| == 1
    requires UniqueArticleKeys(st) && UniqueAuthorNames(st)
    ensures var r := IngestItems(st, sourceName, items, env);
            UniqueArticleKeys(r.store) && UniqueAuthorNames(r.store)
    decreases |items|
  {
    if |items| > 0 {
      var first := IngestItem(st, sourceName, items[0], env);
      ItemKeepsUniqueKeys(st, sourceName, items[0], env);
      ItemKeepsUniqueNames(st, sourceName, items[0], env);
      if first.Done? {
        ItemsKeepUnique(first.store, sourceName, items[1..], env);
      }
    }
  }

  /** A whole run keeps both invariants: the marker update only touches source nodes. */
  lemma RunKeepsUnique(st: Store, name: string, env: Env)
    requires UniqueArticleKeys(st) && UniqueAuthorNames(st)
    ensures UniqueArticleKeys(Run(st, name, env).store) && UniqueAuthorNames(Run(st, name, env).store)
  {
    var source := LookupSource(st, name, env.fails);
    if source.Found? {
      var response := env.fetch(source.value.url);
      if response.Fetched? && response.statusCode <= 300 && source.value.lastUpdate != response.feed.updated {
        RunUnfold(st, name, env);
        ItemsKeepUnique(st, name, response.feed.items, env);
      }
    }
  }
}
